=== FILE: README.md ===
# Digital-design tutorial devices: a Dafny model

This project models the devices exercised by the cocotb testbenches of an
open-source chip-design workshop. It also models the one real algorithm in
those testbenches: the period and duty-cycle measurement of the programmable
clock divider. The HDL of the devices is not part of this model. Each device
is instead given as a reference model of the behaviour its testbench asserts.
Every check the testbenches make is proved about that model, either as a
general lemma or as a check of a concrete vector.

Time is abstracted to one step per rising edge of the input clock. A
synchronous device is an immutable state plus a pure `Step` function over the
inputs sampled at that edge. An observed signal is the sequence of values it
takes edge by edge.

- `wrappers.dfy` (`Wrappers`): the `Option` type.
- `words.dfy` (`Words`): 1-, 4- and 8-bit value types and `Pow2`.
- `measure.dfy` (`PeriodMeasure`): `measure_one_period` as a pure function
  over a finite sample sequence. Each of its four wait loops becomes a search
  for the first sample with a given level. A search that runs off the end of
  the samples yields `None`, where that loop would wait forever.
- `waveform.dfy` (`Waveform`): the reference divided clock. It is a periodic
  trace of `high` high samples then `low` low samples, read from any phase.
  This module proves that measuring such a trace from any phase gives
  `(high + low, high, low)`.
- `clock_divider.dfy` (`ClockDivider`): the divider is a counter modulo the
  effective divisor `max(div, 2)`. At each edge its registered output becomes
  high while the counter is below half the divisor. The module also models
  the testbench: `sync_reset`, the measurement with an edge budget, the sweep
  `test_all_divisors`, and `test_dynamic_change`. Both tests are proved to
  pass from every power-on state, whichever edge a read sees.
- `counter8.dfy` (`Counter8`): the 8-bit counter with reset, enable and wrap.
- `traffic_light.dfy` (`TrafficLight`): the RED/GREEN/YELLOW controller. It
  dwells for 4, 5 and 2 tick pulses, and its lamps are one-hot.
- `crc5.dfy` (`Crc5`): the serial CRC-5 shift register. Its generator is
  x^5 + x^2 + 1, the generator of the USB token CRC (USB 2.0 specification,
  section 8.3.5.1), used here with a zero start and no final inversion. Data
  enters most significant bit first.
- `adders.dfy` (`Adders`): the half adder, the full adder, and the 8-bit
  ripple-carry adder, each given at gate level and proved to add.
- `barrel_shifter.dfy` (`BarrelShifter`): the 4-bit logical shifter, built as
  three stages that shift by 1, 2 and 4.

Reads and edges. The clock-divider, traffic-light and CRC testbenches read a
signal right after `RisingEdge`. Such a read sees the value from before that
edge's update. The whole sample stream therefore lags by one edge, which does
not change any run length.

- In the divider tests the reads describe the state one edge behind the
  device. After a divisor write the device has already taken one hidden edge
  at the old divisor, and the last settle edge is not yet visible. `Settle`
  models both views, selected by `Reads`, and `PreEdgeReadsLag` gives a state
  where they differ. `SettleSettles` shows that three settle edges still leave
  the divider settled in the pre-edge view, as two do in the post-edge view.
  `AllDivisorsTestPasses` and `DynamicChangeTestPasses` prove both tests pass
  in both views.
- In the traffic-light test, `check_state` reads the lamps right after the
  last edge of `apply_tick` or of the reset sequence. Tick is low on that
  edge, so by `IdleEdgesHold` the state before and after it is the same, and
  both views read the same lamps.
- In the CRC test, the value read after the ninth edge is the register after
  the eight data bits. The ninth edge is taken with enable and the last data
  bit still high. If its update were visible, the register would read 0x19
  instead of 0x0E, and `Crc5.TestbenchPasses` states both values.
- The counter testbench waits 1 ns after each edge, so it reads the updated
  register.

The code has no timeout: on a stuck divided clock its loops wait forever. The
model is a function over a finite trace and returns `None` exactly when the
transitions never occur (`MeasureSucceedsIff`). On the device this finite
trace is an edge budget, the parameter `budget` of `MeasureDevice`. Each test
is proved to pass for every budget of at least twice the largest effective
divisor.

## Model

| member | source | states |
|---|---|---|
| PeriodMeasure.FirstFrom | tutorial-03/tb/test_clk_div.py:28-53 | each wait loop stops at the first sample of the awaited level at or after its start; None means no such sample exists, so the loop would never exit |
| PeriodMeasure.Sync | tutorial-03/tb/test_clk_div.py:24-53 | the four edges found are ordered low < rise < fall < end; the output is high before the first low, low until the rise, high from rise to fall and low from fall to end; the low sample is the first one, and each later stage (AwaitRise, AwaitFall, AwaitEnd) starts one edge after the previous one stopped |
| PeriodMeasure.Measure | tutorial-03/tb/test_clk_div.py:19-56 | a successful measurement has period = high + low with high >= 1 and low >= 1; it succeeds exactly when the edge synchronisation does |
| PeriodMeasure.Consumed | tutorial-03/tb/test_clk_div.py:48-56 | a measurement ends on an edge inside the samples at which the output is high again |
| PeriodMeasure.MeasureFromEdges | tutorial-03/tb/test_clk_div.py:37-56 | once the four awaited edges are known, the result is (end - rise, fall - rise, end - fall) |
| PeriodMeasure.MeasuredHasTransitions | tutorial-03/tb/test_clk_div.py:28-53 | a successful measurement has seen a low, a high, a low and a high sample in that order |
| PeriodMeasure.TransitionsAreFound | tutorial-03/tb/test_clk_div.py:28-53 | if a low, high, low, high sequence occurs at any positions, every wait loop exits no later than it, so the synchronisation succeeds |
| PeriodMeasure.MeasureSucceedsIff | tutorial-03/tb/test_clk_div.py:28-53 | the measurement returns a triple if and only if a low, high, low, high sequence occurs in the samples; otherwise the testbench's loops never exit |
| PeriodMeasure.StuckOutputNeverMeasures | tutorial-03/tb/test_clk_div.py:28-35 | a divided clock stuck at either level never yields a measurement |
| PeriodMeasure.FirstFromPrefix | tutorial-03/tb/test_clk_div.py:28-53 | a wait loop that exits within the samples exits at the same edge when more samples follow |
| PeriodMeasure.SyncOfPrefix | tutorial-03/tb/test_clk_div.py:28-53 | the edges a synchronisation finds are found again when more samples follow |
| PeriodMeasure.MeasureIgnoresLaterSamples | tutorial-03/tb/test_clk_div.py:19-56 | samples after a successful measurement do not change it, so the finite model agrees with the unbounded loops whenever it succeeds |
| Waveform.AdvanceWithinTwoPeriods | tutorial-03/tb/test_clk_div.py:24-26 | within two periods, the phase of the reference wave is the wrapped sum of start phase and edge count |
| Waveform.SuffixIsWave | tutorial-03/tb/test_clk_div.py:77-79 | the rest of a wave after any number of samples is the same wave at the advanced phase |
| Waveform.MeasureWave | tutorial-03/tb/test_clk_div.py:24-56 | phase independence: on a trace of h highs then l lows started at any phase, the measurement returns (h + l, h, l) after 2(h + l) - phase edges |
| Waveform.MeasureWaveTwice | tutorial-03/tb/test_clk_div.py:77-79 | two back-to-back measurements of a steady wave return the same triple |
| ClockDivider.Eff | tutorial-03/tb/test_clk_div.py:74-75 | the effective divisor is the larger of the raw divisor and 2, so it is at least 2 |
| ClockDivider.ExpectedDuty | tutorial-03/tb/test_clk_div.py:85-93 | the expected period is the effective divisor; high + low = period, 1 <= high <= low <= high + 1, and low = high + 1 exactly when the period is odd |
| ClockDivider.Step | tutorial-03/tb/test_clk_div.py:11-17 | reset forces counter 0 and output low; otherwise the counter stays below the effective divisor and advances by one position, wrapping to 0 |
| ClockDivider.SaturatedDivisorsAgree | tutorial-03/tb/test_clk_div.py:60-75 | divisors 0 and 1 step exactly like 2 and are expected to measure (2, 1, 1) |
| ClockDivider.Trace | tutorial-03/tb/test_clk_div.py:27-31 | sample k of the observed divided clock is the output after k edges |
| ClockDivider.SettledAfterTwoEdges | tutorial-03/tb/test_clk_div.py:71-72 | from any state, two or more edges at a fixed divisor leave the divider settled |
| ClockDivider.SettledTraceIsWave | tutorial-03/tb/test_clk_div.py:81-93 | a settled divider outputs Eff/2 highs then Eff - Eff/2 lows, periodically |
| ClockDivider.MeasureDevice | tutorial-03/tb/test_clk_div.py:19-56 | a device measurement that succeeds waited between 1 and budget edges, ends with the output high in the state that many edges later, and has period = high + low |
| ClockDivider.MeasureSettled | tutorial-03/tb/test_clk_div.py:77-93 | on a settled divider with a budget of twice the effective divisor, the measurement returns the expected (period, high, low) and leaves the divider settled |
| ClockDivider.SyncReset | tutorial-03/tb/test_clk_div.py:11-17 | whatever the state before, sync_reset leaves the divider one released edge after reset |
| ClockDivider.CheckOnce | tutorial-03/tb/test_clk_div.py:79-93 | a check passes exactly when the measurement returns the expected (period, high, low), and then leaves the divider in the state the measurement ended in, 1 to budget edges later; it times out exactly when the measurement does; a mismatch carries the divisor, its expected triple and a different measured one |
| ClockDivider.Settle | tutorial-03/tb/test_clk_div.py:69-72 | post-edge, the reads see the divider n edges at the new divisor after the last read; pre-edge, they describe the state one edge behind a device that has taken one edge at the old divisor and then n at the new one |
| ClockDivider.CheckDivisor | tutorial-03/tb/test_clk_div.py:68-93 | a pass means both measurements after the settle wait returned the expected triple, the second starting where the first ended; a mismatch names this divisor with its expected triple and a different measured one |
| ClockDivider.Sweep | tutorial-03/tb/test_clk_div.py:66-93 | an empty sweep passes without touching the divider; a pass ends on a high output; a mismatch names one of the swept divisors, its expected triple and a different measured one |
| ClockDivider.AllDivisorsTest | tutorial-03/tb/test_clk_div.py:58-93 | test_all_divisors passing ends on a high output, and a failing assertion reports the expected triple of its divisor against a different measured one |
| ClockDivider.SweepPassChecksAll | tutorial-03/tb/test_clk_div.py:66-93 | a sweep passes only if every divisor in its list passed both of its measurements |
| ClockDivider.AllDivisorsPassChecksAll | tutorial-03/tb/test_clk_div.py:58-93 | test_all_divisors passes only if each of the divisors 0 to 15 passed both of its measurements after three settle edges |
| ClockDivider.DynamicChangeTest | tutorial-03/tb/test_clk_div.py:95-112 | a pass means the measurement after five edges at divisor 6 gave period 6 and the one after five edges at divisor 9 gave (9, 4, 5), ending where that measurement ended on a high output; it fails only by measuring a period other than 6 at divisor 6, or a triple other than (9, 4, 5) at divisor 9 |
| ClockDivider.AllNibbles | tutorial-03/tb/test_clk_div.py:66 | the sweep visits the divisors 0 to 15 in order |
| ClockDivider.ResetSeen | tutorial-03/tb/test_clk_div.py:11-17 | post-edge reads see the state sync_reset leaves; pre-edge reads see the reset state, one released edge behind the device |
| ClockDivider.SettleSettles | tutorial-03/tb/test_clk_div.py:69-72 | after a divisor write, two visible settle edges (two post-edge, three pre-edge, whose first is taken at the old divisor) leave the divider settled at the new divisor from any state |
| ClockDivider.PreEdgeReadsLag | tutorial-03/tb/test_clk_div.py:69-72 | the two views differ: switched from 4 to 3 at counter 2, two edges later the pre-edge reads describe counter 1 with output low, the post-edge reads counter 1 with output high |
| ClockDivider.CheckDivisorPasses | tutorial-03/tb/test_clk_div.py:68-93 | with two visible settle edges, both measurements for a divisor pass from any state and previous divisor, in either view |
| ClockDivider.SweepPasses | tutorial-03/tb/test_clk_div.py:66-93 | the sweep over any list of divisors passes from any state, in either view |
| ClockDivider.AllDivisorsTestPasses | tutorial-03/tb/test_clk_div.py:58-93 | test_all_divisors passes from any power-on state and initial divisor, with post-edge reads and with pre-edge reads; post-edge, two settle edges would already do |
| ClockDivider.MeasureAfterFiveEdges | tutorial-03/tb/test_clk_div.py:102-110 | after a divisor write and five settle edges, from any state and previous divisor and in either view, the measurement returns the expected triple of the new divisor |
| ClockDivider.DynamicChangeTestPasses | tutorial-03/tb/test_clk_div.py:95-112 | running at 6 then switching to 9 measures period 6 and then (9, 4, 5), from any power-on state and initial divisor, in either view |
| ClockDivider.SwitchedSamples | tutorial-03/tb/test_clk_div.py:69-72 | a divider at counter 8 switched to divisor 4 wraps to counter 1 on the next edge and then reads low, high, low, low, high |
| ClockDivider.ShortPeriodMeasured | tutorial-03/tb/test_clk_div.py:19-56 | the samples low, high, low, low, high measure as (3, 1, 2) and the measurement ends on the fifth sample |
| ClockDivider.SettleOfOneIsNotEnough | tutorial-03/tb/test_clk_div.py:71-72 | a divider switched from 9 to 4 at counter 8 and measured one edge later reports (3, 1, 2) instead of (4, 2, 2) |
| Counter8.Step | tutorial-01/material/tb/test_counter_8bit.py:14-58 | reset gives 0 whatever enable is; enable low holds; enable high adds one, wrapping 255 to 0 |
| Counter8.HoldKeepsCount | tutorial-01/material/tb/test_counter_8bit.py:33-43 | any number of edges with enable low leave the count unchanged |
| Counter8.CountWraps | tutorial-01/material/tb/test_counter_8bit.py:61-91 | n enabled edges from count c give (c + n) mod 256 |
| Counter8.RunAppend | tutorial-01/material/tb/test_counter_8bit.py:22-51 | running two input sequences back to back is running their concatenation |
| Counter8.ResetWins | tutorial-01/material/tb/test_counter_8bit.py:54-58 | reset clears the count even with enable high |
| Counter8.TestbenchPasses | tutorial-01/material/tb/test_counter_8bit.py:6-91 | every check of test_counter_8bit holds: reset, counts 1 to 9, hold at 9, resume at 10, mid-operation reset, 254, 255, 0, 1 |
| TrafficLight.OnTick | tutorial-02/tb/test_traffic.py:49-89 | a tick pulse keeps the state valid and either keeps the light or moves to the next one with a fresh count; the light changes exactly when the dwell count is reached |
| TrafficLight.Step | tutorial-02/tb/test_traffic.py:38-47 | reset gives RED with no ticks counted; an edge with tick low changes nothing; an edge with tick high is one tick of the controller (OnTick) |
| TrafficLight.ApplyTick | tutorial-02/tb/test_traffic.py:6-13 | one apply_tick pulse (tick high one edge, low two) counts as exactly one tick |
| TrafficLight.IdleEdgesHold | tutorial-02/tb/test_traffic.py:10-13 | any number of edges with tick low leave the state unchanged |
| TrafficLight.TicksAdd | tutorial-02/tb/test_traffic.py:49-89 | a + b tick pulses equal a pulses followed by b |
| TrafficLight.TicksWithinLight | tutorial-02/tb/test_traffic.py:49-89 | within a light the count grows by one per pulse, and the pulse that reaches the dwell count (RED 4, GREEN 5, YELLOW 2) moves to the next light |
| TrafficLight.CycleOfEleven | tutorial-02/tb/test_traffic.py:33-89 | eleven pulses bring every valid state back to itself, so RED to GREEN to YELLOW returns to RED |
| TrafficLight.Outputs | tutorial-02/tb/test_traffic.py:15-22 | exactly one lamp is on, and it is the lamp of the current light |
| TrafficLight.TestbenchPasses | tutorial-02/tb/test_traffic.py:31-89 | from any power-on state, reset gives RED, ticks 1 to 3 stay RED, tick 4 gives GREEN, ticks 5 to 8 stay GREEN, ticks 9 and 10 show YELLOW, and tick 11 gives RED |
| Crc5.Value | tutorial-04/tb/test_crc5.py:41-48 | the register reads below 32 and reads 0 exactly when it is cleared |
| Crc5.ValueIsWord | tutorial-04/tb/test_crc5.py:41-48 | the register's number and its 5-bit word are the same value |
| Crc5.Shift | tutorial-04/tb/test_crc5.py:27-35 | one enabled edge of the shift register is one step of the bitwise CRC-5 algorithm with generator 0x25 (shift left, xor 0x05 when the outgoing bit differs from the data bit) |
| Crc5.Step | tutorial-04/tb/test_crc5.py:14-35 | reset clears the register; with enable low it holds; with enable high it shifts the data bit in |
| Crc5.CrcAppend | tutorial-04/tb/test_crc5.py:27-35 | shifting in two bit strings back to back is shifting in their concatenation |
| Crc5.Crc | tutorial-04/tb/test_crc5.py:27-43 | for every bit string, shifting it into the register agrees with the bitwise CRC-5 algorithm run on the register's word |
| Crc5.ShiftOutSelf | tutorial-04/tb/test_crc5.py:41-43 | feeding a register its own bits, most significant first, clears it |
| Crc5.ResidueIsZero | tutorial-04/tb/test_crc5.py:41-43 | a message followed by its own CRC leaves a zero register |
| Crc5.CrcLinear | tutorial-04/tb/test_crc5.py:41-43 | with a zero start and no inversion the CRC is linear over xor |
| Crc5.ZerosKeepNonzero | tutorial-04/tb/test_crc5.py:41-43 | shifting in zeros never clears a register that is not zero |
| Crc5.ZeroStaysZero | tutorial-04/tb/test_crc5.py:14-24 | a cleared register stays cleared while zeros are shifted in |
| Crc5.SingleBitErrorDetected | tutorial-04/tb/test_crc5.py:41-43 | flipping any one bit of a message changes its CRC |
| Crc5.TestbenchPasses | tutorial-04/tb/test_crc5.py:6-48 | reset reads 0; the eight bits of 0xA5, most significant first, give 0x0E; the ninth edge's own update would give 0x19 |
| Adders.HalfAdd | tutorial-01/tb/test_half_adder.py:10-15 | the sum and carry bits weigh exactly a + b |
| Adders.HalfAddProperties | tutorial-01/tb/test_half_adder.py:10-15 | the half adder is symmetric in a and b, and sum and carry are never both 1 |
| Adders.HalfAdderTable | tutorial-01/tb/test_half_adder.py:10-34 | all four truth-table rows hold |
| Adders.FullAdd | tutorial-01/tb/test_full_adder.py:10-19 | the sum and carry bits weigh exactly a + b + cin |
| Adders.FullAddProperties | tutorial-01/tb/test_full_adder.py:10-19 | the sum is a xor b xor cin, the carry is the majority, and the outputs are symmetric in the three inputs |
| Adders.FullAdderTable | tutorial-01/tb/test_full_adder.py:10-39 | all eight truth-table rows hold |
| Adders.FromBits | tutorial-01/tb/test_adder_8bit.py:10-21 | the value of n bits is below 2^n |
| Adders.FromToBits | tutorial-01/tb/test_adder_8bit.py:10-21 | splitting a value below 2^n into n bits and reading them back gives the value |
| Adders.RippleAdd | tutorial-01/tb/test_adder_8bit.py:10-21 | a chain of full adders yields sum bits and a final carry that weigh exactly a + b + cin |
| Adders.Add8 | tutorial-01/tb/test_adder_8bit.py:10-21 | sum = (a + b + cin) mod 256, cout is 1 iff a + b + cin >= 256, and a + b + cin = sum + 256 * cout |
| Adders.Add8Extremes | tutorial-01/tb/test_adder_8bit.py:11-17 | adding 0 with no carry in is the identity, and 0xFF + 0xFF + 1 gives 0xFF with carry 1 |
| Adders.Add8Determined | tutorial-01/tb/test_adder_8bit.py:42-45 | an expected sum and carry that weigh a + b + cin are the adder's outputs |
| Adders.Adder8Table | tutorial-01/tb/test_adder_8bit.py:10-45 | all ten directed vectors hold |
| BarrelShifter.Shift | tutorial-01/tb/test_barrel_shifter.py:9-52 | direction 0 gives (data * 2^amt) mod 16, and direction 1 gives data / 2^amt with zero fill |
| BarrelShifter.WeightsMultiply | tutorial-01/tb/test_barrel_shifter.py:11-52 | the weights of the three stages, 2, 4 and 16 or 1 according to the bits of the amount, multiply to 2^amt |
| BarrelShifter.StagesLeft | tutorial-01/tb/test_barrel_shifter.py:11-52 | the three left stages together give (data * 2^amt) mod 16 |
| BarrelShifter.StagesRight | tutorial-01/tb/test_barrel_shifter.py:11-52 | the three right stages together give data / 2^amt |
| BarrelShifter.Stage3Meaning | tutorial-01/tb/test_barrel_shifter.py:11-52 | the three stages, enabled by the bits of the amount, shift by the whole amount in either direction |
| BarrelShifter.ShiftExtremes | tutorial-01/tb/test_barrel_shifter.py:36-52 | a shift by 0 is the identity in both directions, and shifts by 4 to 7 give 0 |
| BarrelShifter.Pow2Grows | tutorial-01/tb/test_barrel_shifter.py:36-52 | powers of two grow with the exponent |
| BarrelShifter.ShifterTable | tutorial-01/tb/test_barrel_shifter.py:11-78 | all 28 vectors of the test table hold |

## Left out

- The cocotb machinery is abstracted to one sample per rising edge: clock
  generation, `start_soon`, the `RisingEdge`, `ClockCycles` and `Timer`
  triggers, and logging. Real time units and the waveform-spacing delays are
  left out as well.
- The simulator's scheduling phases are not modelled. Their only consequence
  here is the one-edge lag of reads taken right after an edge, which the
  lemmas above account for.
- The HDL sources are not part of this model. Each device is a reference
  model of the behaviour its testbench asserts. The divider's internals are
  not visible: the model takes a counter modulo the effective divisor whose
  output is high while the counter is below half of it, which gives the
  waveform the sweep asserts.
- ClockDivider.MeasureDevice: `measure_one_period` waits without bound. The
  model takes an edge budget and returns None when it is exhausted. Every
  test is proved to pass for any budget of at least twice the largest
  effective divisor (30 edges), so the budget never decides an outcome the
  testbench's loops would reach.
- TrafficLight.OnTick: the tick counter's behaviour in a state it cannot
  reach from reset (a count at or above the dwell) is not visible. The model
  moves on to the next light there.
- Makefiles, simulator selection and waveform dumping are not part of the
  model.

=== FILE: adders.dfy ===
/**
 The combinational adders: half adder, full adder and the 8-bit adder with
 carry in and carry out. Each is given at gate level (the 8-bit adder as a
 ripple of full adders) and proved to add.
 */
module Adders {
  import opened Words

  function Xor(a: Bit, b: Bit): Bit {
    if a != b then 1 else 0
  }

  function And(a: Bit, b: Bit): Bit {
    if a == 1 && b == 1 then 1 else 0
  }

  function Or(a: Bit, b: Bit): Bit {
    if a == 1 || b == 1 then 1 else 0
  }

  /** Sum bit and carry-out bit of an adder. */
  datatype AddOut = AddOut(sum: Bit, carry: Bit)

  /** Half adder: sum = a xor b, carry = a and b. No input pair is lost: the
      two outputs weigh exactly a + b. */
  function HalfAdd(a: Bit, b: Bit): (r: AddOut)
    ensures a + b == r.sum + 2 * r.carry
  {
    AddOut(Xor(a, b), And(a, b))
  }

  lemma HalfAddProperties(a: Bit, b: Bit)
    ensures HalfAdd(a, b) == HalfAdd(b, a)
    ensures !(HalfAdd(a, b).sum == 1 && HalfAdd(a, b).carry == 1)
  {
  }

  /** `test_half_adder`: all four rows of the truth table. */
  lemma HalfAdderTable()
    ensures var table := [(0, 0, 0, 0), (0, 1, 1, 0), (1, 0, 1, 0), (1, 1, 0, 1)];
      forall i :: 0 <= i < |table| ==>
        HalfAdd(table[i].0, table[i].1) == AddOut(table[i].2, table[i].3)
  {
  }

  /** Full adder from two half adders and an or gate. */
  function FullAdd(a: Bit, b: Bit, cin: Bit): (r: AddOut)
    ensures a + b + cin == r.sum + 2 * r.carry
  {
    var h1 := HalfAdd(a, b);
    var h2 := HalfAdd(h1.sum, cin);
    AddOut(h2.sum, Or(h1.carry, h2.carry))
  }

  /** The majority of three bits. */
  function Majority(a: Bit, b: Bit, c: Bit): Bit {
    if a + b + c >= 2 then 1 else 0
  }

  lemma FullAddProperties(a: Bit, b: Bit, cin: Bit)
    ensures FullAdd(a, b, cin).sum == Xor(Xor(a, b), cin)
    ensures FullAdd(a, b, cin).carry == Majority(a, b, cin)
    ensures FullAdd(a, b, cin) == FullAdd(b, a, cin) == FullAdd(a, cin, b)
  {
  }

  /** `test_full_adder`: all eight rows of the truth table. */
  lemma FullAdderTable()
    ensures var table := [(0, 0, 0, 0, 0), (0, 0, 1, 1, 0), (0, 1, 0, 1, 0), (0, 1, 1, 0, 1),
                          (1, 0, 0, 1, 0), (1, 0, 1, 0, 1), (1, 1, 0, 0, 1), (1, 1, 1, 1, 1)];
      forall i :: 0 <= i < |table| ==>
        FullAdd(table[i].0, table[i].1, table[i].2) == AddOut(table[i].3, table[i].4)
  {
  }

  /** Little-endian value of a bit string. */
  function FromBits(s: seq<Bit>): (v: nat)
    ensures v < Pow2(|s|)
  {
    if |s| == 0 then 0 else s[0] + 2 * FromBits(s[1..])
  }

  /** The `n` low bits of `x`, least significant first. */
  function ToBits(x: nat, n: nat): (s: seq<Bit>)
    ensures |s| == n
  {
    if n == 0 then [] else [x % 2] + ToBits(x / 2, n - 1)
  }

  lemma {:induction false} FromToBits(x: nat, n: nat)
    requires x < Pow2(n)
    ensures FromBits(ToBits(x, n)) == x
    decreases n
  {
    if n > 0 {
      FromToBits(x / 2, n - 1);
      assert ToBits(x, n)[1..] == ToBits(x / 2, n - 1);
    }
  }

  /** Sum bits and final carry of a ripple-carry chain. */
  datatype Ripple = Ripple(sum: seq<Bit>, carry: Bit)

  /** A chain of full adders, bit 0 first, each carry feeding the next. */
  function RippleAdd(a: seq<Bit>, b: seq<Bit>, cin: Bit): (r: Ripple)
    requires |a| == |b|
    decreases |a|
    ensures |r.sum| == |a|
    ensures FromBits(r.sum) + (if r.carry == 1 then Pow2(|a|) else 0) == FromBits(a) + FromBits(b) + cin
  {
    if |a| == 0 then Ripple([], cin)
    else
      var f := FullAdd(a[0], b[0], cin);
      var rest := RippleAdd(a[1..], b[1..], f.carry);
      assert ([f.sum] + rest.sum)[1..] == rest.sum;
      Ripple([f.sum] + rest.sum, rest.carry)
  }

  /** Result of the 8-bit adder. */
  datatype Add8Out = Add8Out(sum: Byte, cout: Bit)

  /** The 8-bit adder: eight rippled full adders. The sum is the total modulo
      256 and the carry out says whether the total reached 256. */
  function Add8(a: Byte, b: Byte, cin: Bit): (r: Add8Out)
    ensures a + b + cin == r.sum + 256 * r.cout
    ensures r.sum == (a + b + cin) % 256
    ensures r.cout == 1 <==> a + b + cin >= 256
  {
    var ab := ToBits(a, 8);
    var bb := ToBits(b, 8);
    assert Pow2(8) == 256;
    FromToBits(a, 8);
    FromToBits(b, 8);
    var rip := RippleAdd(ab, bb, cin);
    var sum: Byte := FromBits(rip.sum);
    LowByteAndCarry(a + b + cin, sum, rip.carry);
    Add8Out(sum, rip.carry)
  }

  /** Splitting a total below 512 into a byte and a carry bit is taking it
      modulo 256 and comparing it with 256. */
  lemma LowByteAndCarry(total: nat, sum: Byte, carry: Bit)
    requires total == sum + 256 * carry
    ensures sum == total % 256
    ensures carry == 1 <==> total >= 256
  {
  }

  /** Adding zero with no carry in is the identity; the carry never exceeds
      one bit even for the largest inputs. */
  lemma Add8Extremes(a: Byte)
    ensures Add8(a, 0, 0) == Add8Out(a, 0)
    ensures Add8(0xFF, 0xFF, 1) == Add8Out(0xFF, 1)
  {
  }

  /** A sum and carry that together weigh a + b + cin are the adder's. */
  lemma Add8Determined(a: Byte, b: Byte, cin: Bit, sum: Byte, cout: Bit)
    requires a + b + cin == sum + 256 * cout
    ensures Add8(a, b, cin) == Add8Out(sum, cout)
  {
    var r := Add8(a, b, cin);
    SplitIsUnique(r.sum, r.cout, sum, cout);
  }

  /** A number below 512 has one split into a low byte and a carry bit. */
  lemma SplitIsUnique(s1: Byte, c1: Bit, s2: Byte, c2: Bit)
    requires s1 + 256 * c1 == s2 + 256 * c2
    ensures s1 == s2 && c1 == c2
  {
  }

  /** The directed vectors of `test_adder_8bit`: a, b, cin, sum, cout. */
  const Adder8Vectors: seq<(Byte, Byte, Bit, Byte, Bit)> := [
    (0x00, 0x00, 0, 0x00, 0), (0x01, 0x01, 0, 0x02, 0), (0x0F, 0x01, 0, 0x10, 0),
    (0xFF, 0x00, 0, 0xFF, 0), (0xFF, 0x01, 0, 0x00, 1), (0xFF, 0xFF, 0, 0xFE, 1),
    (0xFF, 0xFF, 1, 0xFF, 1), (0xAA, 0x55, 0, 0xFF, 0), (0x12, 0x34, 0, 0x46, 0),
    (0x80, 0x80, 0, 0x00, 1)]

  /** `test_adder_8bit`: every directed vector. */
  lemma Adder8Table()
    ensures forall i :: 0 <= i < |Adder8Vectors| ==>
      var v := Adder8Vectors[i];
      Add8(v.0, v.1, v.2) == Add8Out(v.3, v.4)
  {
    forall i | 0 <= i < |Adder8Vectors|
      ensures var v := Adder8Vectors[i]; Add8(v.0, v.1, v.2) == Add8Out(v.3, v.4)
    {
      var v := Adder8Vectors[i];
      Add8Determined(v.0, v.1, v.2, v.3, v.4);
    }
  }
}

=== FILE: barrel_shifter.dfy ===
/**
 The 4-bit logical barrel shifter: direction 0 shifts left, direction 1
 shifts right, by a 3-bit amount; vacated positions fill with zeros and
 bits shifted past either end are lost. The shifter is built as three
 stages that shift by 1, 2 and 4 when the matching bit of the amount is set.
 */
module BarrelShifter {
  import opened Words

  /** The shift amount is 3 bits wide. */
  type Amount = x: nat | x < 8

  /** One stage: when `on`, multiply (left) or divide (right) by `factor`,
      a power of two, keeping four bits. */
  function Stage(x: Nibble, factor: nat, on: bool, dir: Bit): Nibble
    requires factor >= 1
  {
    if !on then x
    else if dir == 0 then (x * factor) % 16
    else x / factor
  }

  function Shift(data: Nibble, amt: Amount, dir: Bit): (r: Nibble)
    ensures dir == 0 ==> r == (data * Pow2(amt)) % 16
    ensures dir == 1 ==> r == data / Pow2(amt)
  {
    var s1 := Stage(data, 2, amt % 2 == 1, dir);
    var s2 := Stage(s1, 4, (amt / 2) % 2 == 1, dir);
    var s3 := Stage(s2, 16, amt / 4 == 1, dir);
    Stage3Meaning(data, amt, dir);
    s3
  }

  /** What the three stages compute together, case by case on the amount. */
  lemma Stage3Meaning(data: Nibble, amt: Amount, dir: Bit)
    ensures var s3 := Stage(Stage(Stage(data, 2, amt % 2 == 1, dir), 4, (amt / 2) % 2 == 1, dir), 16, amt / 4 == 1, dir);
      (dir == 0 ==> s3 == (data * Pow2(amt)) % 16) && (dir == 1 ==> s3 == data / Pow2(amt))
  {
    if dir == 0 {
      StagesLeft(data, amt);
    } else {
      StagesRight(data, amt);
    }
  }

  /** The factor a stage applies: its weight when its bit of the amount is
      set, 1 otherwise. */
  function Weight(on: bool, factor: nat): nat {
    if on then factor else 1
  }

  /** The three stage weights multiply to the shift's power of two. */
  lemma WeightsMultiply(amt: Amount)
    ensures Weight(amt % 2 == 1, 2) * Weight((amt / 2) % 2 == 1, 4) * Weight(amt / 4 == 1, 16) == Pow2(amt)
  {
    assert Pow2(1) == 2 && Pow2(2) == 4 && Pow2(3) == 8;
    assert Pow2(4) == 16 && Pow2(5) == 32 && Pow2(6) == 64 && Pow2(7) == 128;
  }

  /** A left stage keeps the low four bits of the product with its weight. */
  lemma LeftStage(x: Nibble, y: nat, factor: nat, on: bool)
    requires factor >= 1 && x == y % 16
    ensures Stage(x, factor, on, 0) == y * Weight(on, factor) % 16
  {
    KeepLowBits(y, Weight(on, factor));
  }

  lemma StagesLeft(data: Nibble, amt: Amount)
    ensures Stage(Stage(Stage(data, 2, amt % 2 == 1, 0), 4, (amt / 2) % 2 == 1, 0), 16, amt / 4 == 1, 0)
      == (data * Pow2(amt)) % 16
  {
    var w1 := Weight(amt % 2 == 1, 2);
    var w2 := Weight((amt / 2) % 2 == 1, 4);
    var w3 := Weight(amt / 4 == 1, 16);
    var s1 := Stage(data, 2, amt % 2 == 1, 0);
    var s2 := Stage(s1, 4, (amt / 2) % 2 == 1, 0);
    LeftStage(data, data, 2, amt % 2 == 1);
    LeftStage(s1, data * w1, 4, (amt / 2) % 2 == 1);
    LeftStage(s2, data * w1 * w2, 16, amt / 4 == 1);
    WeightsMultiply(amt);
    ProductRegroups(data, w1, w2, w3);
  }

  lemma ProductRegroups(a: nat, b: nat, c: nat, d: nat)
    ensures a * b * c * d == a * (b * c * d)
  {
  }

  lemma StagesRight(data: Nibble, amt: Amount)
    ensures Stage(Stage(Stage(data, 2, amt % 2 == 1, 1), 4, (amt / 2) % 2 == 1, 1), 16, amt / 4 == 1, 1)
      == data / Pow2(amt)
  {
    match amt
    case 0 => assert Pow2(0) == 1;
    case 1 => assert Pow2(1) == 2;
    case 2 => assert Pow2(2) == 4;
    case 3 =>
      assert Pow2(3) == 8;
      assert data / 2 / 4 == data / 8;
    case 4 => assert Pow2(4) == 16;
    case 5 =>
      assert Pow2(5) == 32;
      assert data / 2 / 16 == 0 == data / 32;
    case 6 =>
      assert Pow2(6) == 64;
      assert data / 4 / 16 == 0 == data / 64;
    case 7 =>
      assert Pow2(7) == 128;
      assert data / 2 / 4 / 16 == 0 == data / 128;
  }

  /** Dropping the high bits between two left shifts changes nothing. */
  lemma KeepLowBits(y: nat, b: nat)
    ensures (y % 16) * b % 16 == y * b % 16
  {
    var q, r := y / 16, y % 16;
    assert y == 16 * q + r;
    Distribute(16 * q, r, b);
    assert 16 * q * b == 16 * (q * b);
    MultiplesOfSixteenVanish(q * b, r * b);
  }

  lemma Distribute(x: nat, y: nat, b: nat)
    ensures (x + y) * b == x * b + y * b
  {
  }

  lemma MultiplesOfSixteenVanish(k: nat, m: nat)
    ensures (16 * k + m) % 16 == m % 16
  {
  }

  /** Shifting by zero leaves the data alone in both directions, and shifting
      by four or more clears it. */
  lemma ShiftExtremes(data: Nibble, amt: Amount, dir: Bit)
    ensures Shift(data, 0, dir) == data
    ensures amt >= 4 ==> Shift(data, amt, dir) == 0
  {
    if amt >= 4 {
      Pow2Grows(4, amt);
    }
  }

  lemma {:induction false} Pow2Grows(a: nat, b: nat)
    requires a <= b
    ensures Pow2(a) <= Pow2(b)
    decreases b
  {
    if a < b {
      Pow2Grows(a, b - 1);
    }
  }

  /** The vectors of `test_barrel_shifter`: data, amount, direction, output. */
  const ShifterVectors: seq<(Nibble, Amount, Bit, Nibble)> := [
    (0xF, 0, 0, 0xF), (0xF, 1, 0, 0xE), (0xF, 2, 0, 0xC), (0xF, 3, 0, 0x8),
    (0xF, 0, 1, 0xF), (0xF, 1, 1, 0x7), (0xF, 2, 1, 0x3), (0xF, 3, 1, 0x1),
    (0xA, 0, 0, 0xA), (0xA, 1, 0, 0x4), (0xA, 2, 0, 0x8), (0xA, 3, 0, 0x0),
    (0xA, 0, 1, 0xA), (0xA, 1, 1, 0x5), (0xA, 2, 1, 0x2), (0xA, 3, 1, 0x1),
    (0xF, 4, 0, 0), (0xF, 5, 0, 0), (0xF, 6, 0, 0), (0xF, 7, 0, 0),
    (0xF, 4, 1, 0), (0xF, 5, 1, 0), (0xF, 6, 1, 0), (0xF, 7, 1, 0),
    (0xA, 4, 0, 0), (0xA, 7, 0, 0), (0xA, 4, 1, 0), (0xA, 7, 1, 0)]

  lemma ShifterTable()
    ensures forall i :: 0 <= i < |ShifterVectors| ==>
      var v := ShifterVectors[i];
      Shift(v.0, v.1, v.2) == v.3
  {
    assert Pow2(1) == 2 && Pow2(2) == 4 && Pow2(3) == 8;
    forall i | 0 <= i < |ShifterVectors|
      ensures var v := ShifterVectors[i]; Shift(v.0, v.1, v.2) == v.3
    {
      var v := ShifterVectors[i];
      ShiftExtremes(v.0, v.1, v.2);
    }
  }
}

=== FILE: clock_divider.dfy ===
/**
 The programmable clock divider and the two scenarios of its testbench.

 The device divides its input clock by a 4-bit divisor, saturating 0 and 1
 to 2. Its state is a position counter and the registered divided clock;
 on every rising edge of the input clock the output becomes high while the
 counter is in the first half of the period and the counter advances modulo
 the effective divisor. The testbench observes the divided clock once per
 input edge, which is what `Trace` records.
 */
module ClockDivider {
  import opened Wrappers
  import opened PeriodMeasure
  import opened Waveform
  import opened Words

  // The divisor input is 4 bits wide, hence `Nibble`.

  /** Effective divisor: the raw divisor saturated from below at 2. */
  function Eff(raw: Nibble): (e: nat)
    ensures 2 <= e < 16
    ensures e >= raw && (e == raw || e == 2)
  {
    if raw >= 2 then raw else 2
  }

  /** What the sweep expects to measure for a divisor: a period of the
      effective divisor, split into a high phase and a low phase that differ by
      at most one cycle, the low phase taking the odd cycle. */
  function ExpectedDuty(raw: Nibble): (m: Measurement)
    ensures m.period == Eff(raw) && m.high + m.low == m.period
    ensures 1 <= m.high <= m.low <= m.high + 1
    ensures m.low == m.high + 1 <==> m.period % 2 == 1
  {
    var e := Eff(raw);
    Measurement(e, e / 2, e - e / 2)
  }

  datatype DividerState = DividerState(counter: nat, clkDiv: bool)

  /** The state a synchronous reset forces. */
  const ResetState := DividerState(0, false)

  /** One rising edge of the input clock. */
  function Step(st: DividerState, div: Nibble, rst: bool): (r: DividerState)
    ensures rst ==> r == ResetState
    ensures !rst ==> r.counter < Eff(div)
    ensures !rst && st.counter < Eff(div) ==> r.counter == Next(Eff(div), st.counter)
  {
    if rst then ResetState
    else
      var e := Eff(div);
      WrapIsNext(e, st.counter);
      DividerState((st.counter + 1) % e, st.counter < e / 2)
  }

  /** Incrementing modulo the period is the position counter's step. */
  lemma WrapIsNext(e: nat, c: nat)
    requires e >= 1
    ensures (c + 1) % e < e
    ensures c < e ==> (c + 1) % e == Next(e, c)
  {
    if c + 1 < e {
      assert (c + 1) % e == c + 1;
    } else if c + 1 == e {
      assert (c + 1) % e == 0;
    }
  }

  /** Divisors 0 and 1 behave exactly like 2, edge for edge. */
  lemma SaturatedDivisorsAgree(st: DividerState, rst: bool)
    ensures Step(st, 0, rst) == Step(st, 2, rst)
    ensures Step(st, 1, rst) == Step(st, 2, rst)
    ensures ExpectedDuty(0) == ExpectedDuty(1) == ExpectedDuty(2) == Measurement(2, 1, 1)
  {
  }

  /** State after `n` edges with a fixed divisor and reset released. */
  function Run(st: DividerState, div: Nibble, n: nat): DividerState
    decreases n
  {
    if n == 0 then st else Run(Step(st, div, false), div, n - 1)
  }

  lemma {:induction false} RunAdd(st: DividerState, div: Nibble, a: nat, b: nat)
    ensures Run(st, div, a + b) == Run(Run(st, div, a), div, b)
    decreases a
  {
    if a > 0 {
      RunAdd(Step(st, div, false), div, a - 1, b);
    }
  }

  /** The divided clock as read now and after each of the next `n` edges. */
  function Trace(st: DividerState, div: Nibble, n: nat): (s: seq<bool>)
    decreases n
    ensures |s| == n + 1
    ensures forall k :: 0 <= k <= n ==> s[k] == Run(st, div, k).clkDiv
  {
    if n == 0 then [st.clkDiv] else [st.clkDiv] + Trace(Step(st, div, false), div, n - 1)
  }

  /** Counter position one edge back. */
  function Prev(e: nat, c: nat): (r: nat)
    requires c < e
    ensures r < e && Next(e, r) == c
  {
    if c == 0 then e - 1 else c - 1
  }

  /** A divider that has run at least two edges at its current divisor: the
      counter is in range and the output is the one the previous counter
      position produced. */
  predicate Settled(st: DividerState, div: Nibble) {
    && st.counter < Eff(div)
    && st.clkDiv == Level(Eff(div) / 2, Prev(Eff(div), st.counter))
  }

  lemma SettledStep(st: DividerState, div: Nibble)
    requires Settled(st, div)
    ensures Settled(Step(st, div, false), div)
  {
  }

  /** Whatever the divisor or counter was before, two edges at a fixed divisor
      settle the divider. */
  lemma {:induction false} SettledAfterTwoEdges(st: DividerState, div: Nibble, n: nat)
    requires n >= 2
    ensures Settled(Run(st, div, n), div)
    decreases n
  {
    if n == 2 {
      var s1 := Step(st, div, false);
      assert Run(st, div, 2) == Step(s1, div, false);
    } else {
      SettledAfterTwoEdges(st, div, n - 1);
      RunAdd(st, div, n - 1, 1);
      SettledStep(Run(st, div, n - 1), div);
    }
  }

  /** A settled divider produces the reference wave: `Eff/2` highs followed
      by `Eff - Eff/2` lows, from the phase of its previous counter position. */
  lemma {:induction false} SettledTraceIsWave(st: DividerState, div: Nibble, n: nat)
    requires Settled(st, div)
    ensures IsWave(Trace(st, div, n), Eff(div) / 2, Eff(div) - Eff(div) / 2, Prev(Eff(div), st.counter))
    decreases n
  {
    var e := Eff(div);
    var h := e / 2;
    var s := Trace(st, div, n);
    var phase := Prev(e, st.counter);
    if n > 0 {
      var st1 := Step(st, div, false);
      SettledStep(st, div);
      SettledTraceIsWave(st1, div, n - 1);
      assert Prev(e, st1.counter) == st.counter;
      forall k | 0 <= k < |s| ensures s[k] == Level(h, Advance(e, phase, k)) {
        if k > 0 {
          assert s[k] == Trace(st1, div, n - 1)[k - 1];
          assert Advance(e, phase, k) == Advance(e, st.counter, k - 1);
        }
      }
    }
  }

  /** Outcome of one device measurement: the triple, the number of input
      edges waited and the divider state at the end. */
  datatype Observed = Observed(m: Measurement, edges: nat, after: DividerState)

  /** `measure_one_period` on the device, giving up (a timeout) when the
      transitions it waits for do not occur within `budget` edges. */
  function MeasureDevice(st: DividerState, div: Nibble, budget: nat): (r: Option<Observed>)
    ensures r.Some? ==> 0 < r.value.edges <= budget && r.value.after == Run(st, div, r.value.edges)
    ensures r.Some? ==> r.value.after.clkDiv
    ensures r.Some? ==> r.value.m.period == r.value.m.high + r.value.m.low
  {
    var s := Trace(st, div, budget);
    var m :- Measure(s);
    Some(Observed(m, Consumed(s), Run(st, div, Consumed(s))))
  }

  /** The sweep's expectation holds for a settled divider, given twice the
      effective divisor in edges, and the divider is still settled afterwards. */
  lemma MeasureSettled(st: DividerState, div: Nibble, budget: nat)
    requires Settled(st, div) && budget >= 2 * Eff(div)
    ensures MeasureDevice(st, div, budget).Some?
    ensures MeasureDevice(st, div, budget).value.m == ExpectedDuty(div)
    ensures Settled(MeasureDevice(st, div, budget).value.after, div)
  {
    var e := Eff(div);
    var s := Trace(st, div, budget);
    SettledTraceIsWave(st, div, budget);
    MeasureWave(s, e / 2, e - e / 2, Prev(e, st.counter));
    var n := Consumed(s);
    SettledAfterTwoEdges(st, div, n);
  }

  /** How a scenario ends: every assertion held (with the final state), an
      assertion failed, or a wait never ended. */
  datatype Verdict =
    | Pass(state: DividerState)
    | Mismatch(raw: Nibble, expected: Measurement, actual: Measurement)
    | Timeout

  /** `sync_reset`: reset held for two edges, then one edge to settle. */
  function SyncReset(st: DividerState, div: Nibble): (r: DividerState)
    ensures r == Step(ResetState, div, false)
  {
    Step(Step(Step(st, div, true), div, true), div, false)
  }

  /** When a read of the divided clock takes effect. A post-edge read after
      an edge sees that edge's update. A pre-edge read sees the value from
      before the edge, so the state the reads describe lags the device by one
      edge. */
  datatype Reads = PostEdge | PreEdge

  /** The state the reads describe once `sync_reset` returns. Pre-edge, the
      released edge at divisor `div` has happened but is not yet visible. */
  function ResetSeen(st: DividerState, div: Nibble, view: Reads): (r: DividerState)
    ensures view == PostEdge ==> r == SyncReset(st, div)
    ensures view == PreEdge ==> r == ResetState && Step(r, div, false) == SyncReset(st, div)
  {
    match view
    case PostEdge => SyncReset(st, div)
    case PreEdge => Step(Step(st, div, true), div, true)
  }

  /** The state the reads describe after divisor `raw` is written and `n`
      edges pass, starting from the state `seen` read last, at divisor
      `prev`. Pre-edge, the device is already one edge past `seen`, an edge
      taken at `prev` before the write, and the last of the `n` edges is not
      yet visible. */
  function Settle(seen: DividerState, prev: Nibble, raw: Nibble, n: nat, view: Reads): (r: DividerState)
    requires n >= 1
    ensures view == PostEdge ==> r == Run(seen, raw, n)
    ensures view == PreEdge ==> Step(r, raw, false) == Run(Step(seen, prev, false), raw, n)
  {
    match view
    case PostEdge => Run(seen, raw, n)
    case PreEdge =>
      RunAdd(Step(seen, prev, false), raw, n - 1, 1);
      Run(Step(seen, prev, false), raw, n - 1)
  }

  /** Settle edges needed after a divisor write: two that the reads see. */
  function SettleNeeded(view: Reads): nat {
    if view == PreEdge then 3 else 2
  }

  /** Enough settle edges leave the divider settled at the new divisor,
      whatever it read before and whatever the old divisor was. */
  lemma SettleSettles(seen: DividerState, prev: Nibble, raw: Nibble, n: nat, view: Reads)
    requires n >= SettleNeeded(view)
    ensures Settled(Settle(seen, prev, raw, n, view), raw)
  {
    match view
    case PostEdge => SettledAfterTwoEdges(seen, raw, n);
    case PreEdge => SettledAfterTwoEdges(Step(seen, prev, false), raw, n - 1);
  }

  /** One measurement of the sweep with its assertions. */
  function CheckOnce(st: DividerState, raw: Nibble, budget: nat): (v: Verdict)
    ensures v.Pass? ==> exists n :: 0 < n <= budget && v.state == Run(st, raw, n)
    ensures v.Pass? <==>
      MeasureDevice(st, raw, budget).Some? && MeasureDevice(st, raw, budget).value.m == ExpectedDuty(raw)
    ensures v.Pass? ==> v.state == MeasureDevice(st, raw, budget).value.after
    ensures v.Timeout? <==> MeasureDevice(st, raw, budget).None?
    ensures v.Mismatch? ==> v.raw == raw && v.expected == ExpectedDuty(raw) && v.actual != v.expected
  {
    match MeasureDevice(st, raw, budget)
    case None => Timeout
    case Some(o) =>
      if o.m == ExpectedDuty(raw) then Pass(o.after)
      else Mismatch(raw, ExpectedDuty(raw), o.m)
  }

  /** The body of the sweep loop for one divisor: set it, wait `settle`
      edges, then measure and check two consecutive periods. */
  function CheckDivisor(seen: DividerState, prev: Nibble, raw: Nibble, settle: nat, budget: nat, view: Reads): (v: Verdict)
    requires settle >= 1
    ensures v.Pass? ==>
      var o1 := MeasureDevice(Settle(seen, prev, raw, settle, view), raw, budget);
      && o1.Some? && o1.value.m == ExpectedDuty(raw)
      && var o2 := MeasureDevice(o1.value.after, raw, budget);
      && o2.Some? && o2.value.m == ExpectedDuty(raw)
      && v.state == o2.value.after
    ensures v.Mismatch? ==> v.raw == raw && v.expected == ExpectedDuty(raw) && v.actual != v.expected
  {
    var st1 := Settle(seen, prev, raw, settle, view);
    match CheckOnce(st1, raw, budget)
    case Pass(st2) => CheckOnce(st2, raw, budget)
    case other => other
  }

  /** The sweep over a list of divisors, stopping at the first failure;
      `prev` is the divisor in force before the first one is written. */
  function Sweep(seen: DividerState, prev: Nibble, raws: seq<Nibble>, settle: nat, budget: nat, view: Reads): (v: Verdict)
    requires settle >= 1
    ensures |raws| == 0 ==> v == Pass(seen)
    ensures v.Pass? && |raws| > 0 ==> v.state.clkDiv
    ensures v.Mismatch? ==> v.raw in raws && v.expected == ExpectedDuty(v.raw) && v.actual != v.expected
    decreases |raws|
  {
    if |raws| == 0 then Pass(seen)
    else
      match CheckDivisor(seen, prev, raws[0], settle, budget, view)
      case Pass(st1) => Sweep(st1, raws[0], raws[1..], settle, budget, view)
      case other => other
  }

  /** The divisors the sweep visits: 0 to 15. */
  function AllNibbles(): (r: seq<Nibble>)
    ensures |r| == 16 && forall i :: 0 <= i < 16 ==> r[i] == i
  {
    seq(16, i requires 0 <= i < 16 => i as Nibble)
  }

  /** `test_all_divisors`: the sweep after a synchronous reset, with three
      settle edges per divisor. `div0` is whatever the divisor input holds
      before the test first drives it. */
  function AllDivisorsTest(st: DividerState, div0: Nibble, budget: nat, view: Reads): (v: Verdict)
    ensures v.Pass? ==> v.state.clkDiv
    ensures v.Mismatch? ==> v.expected == ExpectedDuty(v.raw) && v.actual != v.expected
  {
    Sweep(ResetSeen(st, div0, view), div0, AllNibbles(), 3, budget, view)
  }

  /** Each divisor's two measurements pass once enough settle edges have
      passed, from any state and divisor left by the previous one. */
  lemma CheckDivisorPasses(seen: DividerState, prev: Nibble, raw: Nibble, settle: nat, budget: nat, view: Reads)
    requires settle >= SettleNeeded(view) && budget >= 2 * Eff(raw)
    ensures CheckDivisor(seen, prev, raw, settle, budget, view).Pass?
  {
    var st1 := Settle(seen, prev, raw, settle, view);
    SettleSettles(seen, prev, raw, settle, view);
    MeasureSettled(st1, raw, budget);
    var st2 := MeasureDevice(st1, raw, budget).value.after;
    MeasureSettled(st2, raw, budget);
  }

  lemma {:induction false} SweepPasses(seen: DividerState, prev: Nibble, raws: seq<Nibble>, settle: nat, budget: nat, view: Reads)
    requires settle >= SettleNeeded(view) && budget >= 30
    ensures Sweep(seen, prev, raws, settle, budget, view).Pass?
    decreases |raws|
  {
    if |raws| > 0 {
      CheckDivisorPasses(seen, prev, raws[0], settle, budget, view);
      var st1 := CheckDivisor(seen, prev, raws[0], settle, budget, view).state;
      SweepPasses(st1, raws[0], raws[1..], settle, budget, view);
    }
  }

  /** Divisor `raw` passed both of its measurements from some state and
      previous divisor. */
  ghost predicate Checked(raw: Nibble, settle: nat, budget: nat, view: Reads)
    requires settle >= 1
  {
    exists seen: DividerState, prev: Nibble :: CheckDivisor(seen, prev, raw, settle, budget, view).Pass?
  }

  /** A passing sweep passed its first divisor and then the rest. */
  lemma SweepUnfold(seen: DividerState, prev: Nibble, raws: seq<Nibble>, settle: nat, budget: nat, view: Reads)
    requires settle >= 1 && |raws| > 0
    ensures Sweep(seen, prev, raws, settle, budget, view).Pass? ==>
      && CheckDivisor(seen, prev, raws[0], settle, budget, view).Pass?
      && Sweep(CheckDivisor(seen, prev, raws[0], settle, budget, view).state, raws[0], raws[1..], settle, budget, view).Pass?
  {
  }

  /** A sweep passes only if every divisor in it passed both measurements. */
  lemma {:induction false} SweepPassChecksAll(seen: DividerState, prev: Nibble, raws: seq<Nibble>, settle: nat, budget: nat, view: Reads)
    requires settle >= 1
    ensures Sweep(seen, prev, raws, settle, budget, view).Pass? ==>
      forall raw :: raw in raws ==> Checked(raw, settle, budget, view)
    decreases |raws|
  {
    if |raws| > 0 && Sweep(seen, prev, raws, settle, budget, view).Pass? {
      SweepUnfold(seen, prev, raws, settle, budget, view);
      var st1 := CheckDivisor(seen, prev, raws[0], settle, budget, view).state;
      SweepPassChecksAll(st1, raws[0], raws[1..], settle, budget, view);
      assert Checked(raws[0], settle, budget, view);
      assert forall raw :: raw in raws ==> raw == raws[0] || raw in raws[1..];
    }
  }

  /** `test_all_divisors` passes only if each of the sixteen divisors passed
      both of its measurements. */
  lemma AllDivisorsPassChecksAll(st: DividerState, div0: Nibble, budget: nat, view: Reads)
    ensures AllDivisorsTest(st, div0, budget, view).Pass? ==> forall raw: Nibble :: Checked(raw, 3, budget, view)
  {
    if AllDivisorsTest(st, div0, budget, view).Pass? {
      SweepPassChecksAll(ResetSeen(st, div0, view), div0, AllNibbles(), 3, budget, view);
      forall raw: Nibble ensures Checked(raw, 3, budget, view) {
        assert AllNibbles()[raw] == raw;
        assert raw in AllNibbles();
      }
    }
  }

  /** `test_all_divisors` passes from any power-on state and any initial
      divisor input, as long as a measurement may wait 30 edges (two periods
      of the largest divisor), whether reads see an edge's update or not.
      With post-edge reads two settle edges would already be enough. */
  lemma AllDivisorsTestPasses(st: DividerState, div0: Nibble, budget: nat)
    requires budget >= 30
    ensures AllDivisorsTest(st, div0, budget, PostEdge).Pass?
    ensures AllDivisorsTest(st, div0, budget, PreEdge).Pass?
    ensures Sweep(SyncReset(st, div0), div0, AllNibbles(), 2, budget, PostEdge).Pass?
  {
    SweepPasses(ResetSeen(st, div0, PostEdge), div0, AllNibbles(), 3, budget, PostEdge);
    SweepPasses(ResetSeen(st, div0, PreEdge), div0, AllNibbles(), 3, budget, PreEdge);
    SweepPasses(SyncReset(st, div0), div0, AllNibbles(), 2, budget, PostEdge);
  }

  /** `test_dynamic_change`: divisor 6 for five edges, one measurement whose
      period must be 6, then divisor 9 for five edges and a measurement that
      must be (9, 4, 5). */
  function DynamicChangeTest(st: DividerState, div0: Nibble, budget: nat, view: Reads): (v: Verdict)
    ensures v.Pass? ==> v.state.clkDiv
    ensures v.Mismatch? ==> v.actual != v.expected
    ensures v.Mismatch? ==>
      || (v.raw == 6 && v.actual.period != 6)
      || (v.raw == 9 && v.actual != Measurement(9, 4, 5))
    ensures v.Pass? ==>
      var o1 := MeasureDevice(Settle(ResetSeen(st, div0, view), div0, 6, 5, view), 6, budget);
      && o1.Some? && o1.value.m.period == 6
      && var o2 := MeasureDevice(Settle(o1.value.after, 6, 9, 5, view), 9, budget);
      && o2.Some? && o2.value.m == Measurement(9, 4, 5)
      && v.state == o2.value.after
  {
    var seen := ResetSeen(st, div0, view);
    match MeasureDevice(Settle(seen, div0, 6, 5, view), 6, budget)
    case None => Timeout
    case Some(o1) =>
      if o1.m.period != 6 then Mismatch(6, ExpectedDuty(6), o1.m)
      else
        match MeasureDevice(Settle(o1.after, 6, 9, 5, view), 9, budget)
        case None => Timeout
        case Some(o2) =>
          if o2.m != Measurement(9, 9 / 2, 9 - 9 / 2) then Mismatch(9, ExpectedDuty(9), o2.m)
          else Pass(o2.after)
  }

  /** After a divisor write and five settle edges, a measurement returns the
      expected triple of the new divisor. */
  lemma MeasureAfterFiveEdges(seen: DividerState, prev: Nibble, raw: Nibble, budget: nat, view: Reads)
    requires budget >= 2 * Eff(raw)
    ensures MeasureDevice(Settle(seen, prev, raw, 5, view), raw, budget).Some?
    ensures MeasureDevice(Settle(seen, prev, raw, 5, view), raw, budget).value.m == ExpectedDuty(raw)
  {
    SettleSettles(seen, prev, raw, 5, view);
    MeasureSettled(Settle(seen, prev, raw, 5, view), raw, budget);
  }

  lemma DynamicChangeTestPasses(st: DividerState, div0: Nibble, budget: nat, view: Reads)
    requires budget >= 18
    ensures DynamicChangeTest(st, div0, budget, view).Pass?
  {
    var seen := ResetSeen(st, div0, view);
    MeasureAfterFiveEdges(seen, div0, 6, budget, view);
    var o1 := MeasureDevice(Settle(seen, div0, 6, 5, view), 6, budget).value;
    MeasureAfterFiveEdges(o1.after, 6, 9, budget, view);
  }

  /** Reads that lag one edge describe a different state after a divisor
      change: the hidden edge is taken at the old divisor. */
  lemma PreEdgeReadsLag()
    ensures Settle(DividerState(2, false), 4, 3, 2, PreEdge) == DividerState(1, false)
    ensures Settle(DividerState(2, false), 4, 3, 2, PostEdge) == DividerState(1, true)
    ensures Settle(DividerState(2, false), 4, 3, 2, PreEdge) != Settle(DividerState(2, false), 4, 3, 2, PostEdge)
  {
  }

  /** The samples a divisor-4 divider reads after being switched from
      divisor 9 at counter 8 and given one edge: the first edge wraps the
      out-of-range counter to 1, so the first high phase is one cycle short. */
  lemma SwitchedSamples()
    ensures Run(DividerState(8, false), 4, 1) == DividerState(1, false)
    ensures Trace(DividerState(1, false), 4, 4) == [false, true, false, false, true]
  {
    var st2 := Step(DividerState(1, false), 4, false);
    var st3 := Step(st2, 4, false);
    var st4 := Step(st3, 4, false);
    assert st2 == DividerState(2, true) && st3 == DividerState(3, false);
    assert st4 == DividerState(0, false) && Step(st4, 4, false) == DividerState(1, true);
  }

  /** Eight edges at divisor 9 after a reset leave the counter at 8. */
  lemma CountsToEight()
    ensures Run(ResetState, 9, 8) == DividerState(8, false)
  {
    var st4 := Run(ResetState, 9, 4);
    assert st4 == DividerState(4, true);
    RunAdd(ResetState, 9, 4, 4);
  }

  /** The measurement of those samples: a 3-cycle period, one cycle high. */
  lemma ShortPeriodMeasured()
    ensures Measure([false, true, false, false, true]) == Some(Measurement(3, 1, 2))
    ensures Consumed([false, true, false, false, true]) == 4
  {
    var s := [false, true, false, false, true];
    FirstFromIs(s, 0, false, 0);
    FirstFromIs(s, 1, true, 1);
    FirstFromIs(s, 2, false, 2);
    FirstFromIs(s, 3, true, 4);
    MeasureFromEdges(s, 0, 1, 2, 4);
  }

  /** Why the settle edges matter: a divider counting at 9 that is switched
      to 4 when its counter is at 8 and measured one edge later reports a
      3-cycle period with one high cycle. */
  lemma SettleOfOneIsNotEnough()
    ensures Run(ResetState, 9, 8) == DividerState(8, false)
    ensures MeasureDevice(Run(DividerState(8, false), 4, 1), 4, 4).Some?
    ensures MeasureDevice(Run(DividerState(8, false), 4, 1), 4, 4).value.m == Measurement(3, 1, 2)
    ensures ExpectedDuty(4) == Measurement(4, 2, 2)
  {
    CountsToEight();
    SwitchedSamples();
    ShortPeriodMeasured();
  }
}

=== FILE: counter8.dfy ===
/**
 The 8-bit up-counter with synchronous reset and count enable. The count is
 read shortly after each rising edge, so it is the register after the edge.
 */
module Counter8 {
  import opened Words

  /** Inputs sampled at one rising edge. */
  datatype Inputs = Inputs(reset: bool, enable: bool)

  /** One rising edge: reset has priority over enable; enabled counting wraps
      from 255 to 0. */
  function Step(count: Byte, i: Inputs): (r: Byte)
    ensures i.reset ==> r == 0
    ensures !i.reset && !i.enable ==> r == count
    ensures !i.reset && i.enable ==> r == (if count == 255 then 0 else count + 1)
  {
    if i.reset then 0
    else if i.enable then (count + 1) % 256
    else count
  }

  /** The count after each edge of an input sequence. */
  function Run(count: Byte, ins: seq<Inputs>): (r: Byte)
    decreases |ins|
  {
    if |ins| == 0 then count else Run(Step(count, ins[0]), ins[1..])
  }

  lemma {:induction false} RunAppend(count: Byte, a: seq<Inputs>, b: seq<Inputs>)
    ensures Run(count, a + b) == Run(Run(count, a), b)
    decreases |a|
  {
    if |a| > 0 {
      assert (a + b)[0] == a[0];
      assert (a + b)[1..] == a[1..] + b;
      RunAppend(Step(count, a[0]), a[1..], b);
    } else {
      assert a + b == b;
    }
  }

  /** `n` edges with the same inputs. */
  function Repeat(i: Inputs, n: nat): (r: seq<Inputs>)
    ensures |r| == n && forall k :: 0 <= k < n ==> r[k] == i
  {
    seq(n, _ => i)
  }

  const Counting := Inputs(false, true)
  const Holding := Inputs(false, false)

  /** With enable low the count holds for any number of edges. */
  lemma {:induction false} HoldKeepsCount(count: Byte, n: nat)
    ensures Run(count, Repeat(Holding, n)) == count
    decreases n
  {
    if n > 0 {
      assert Repeat(Holding, n)[1..] == Repeat(Holding, n - 1);
      HoldKeepsCount(count, n - 1);
    }
  }

  /** `n` enabled edges add `n` modulo 256. */
  lemma {:induction false} CountWraps(count: Byte, n: nat)
    ensures Run(count, Repeat(Counting, n)) == (count + n) % 256
    decreases n
  {
    if n > 0 {
      assert Repeat(Counting, n)[1..] == Repeat(Counting, n - 1);
      CountWraps(Step(count, Counting), n - 1);
    }
  }

  /** Asserting reset for one edge clears the count whatever it was. */
  lemma ResetWins(count: Byte, enable: bool)
    ensures Step(count, Inputs(true, enable)) == 0
  {
  }

  /** The checks of `test_counter_8bit`, in order, from whatever count the
      register holds at power-on. The final reset of test 6 is taken with
      enable still high, as the testbench leaves it. */
  lemma TestbenchPasses(power: Byte)
    // test 1: reset on startup
    ensures Step(power, Inputs(true, false)) == 0
    // test 2: counts 1..9 on consecutive enabled edges
    ensures forall k :: 1 <= k <= 9 ==> Run(0, Repeat(Counting, k)) == k
    // test 3: hold at 9 for five edges
    ensures forall k :: 1 <= k <= 5 ==> Run(9, Repeat(Holding, k)) == 9
    // test 4: resume from the held value
    ensures Run(0, Repeat(Counting, 9) + Repeat(Holding, 5) + [Counting]) == 10
    // test 5: reset during operation
    ensures Step(10, Inputs(true, true)) == 0
    // test 6: after reset, 254 enabled edges reach 254, then 255, 0, 1
    ensures Run(0, Repeat(Counting, 254)) == 254
    ensures Run(0, Repeat(Counting, 255)) == 255
    ensures Run(0, Repeat(Counting, 256)) == 0
    ensures Run(0, Repeat(Counting, 257)) == 1
  {
    forall k | 1 <= k <= 9 ensures Run(0, Repeat(Counting, k)) == k {
      CountWraps(0, k);
    }
    forall k | 1 <= k <= 5 ensures Run(9, Repeat(Holding, k)) == 9 {
      HoldKeepsCount(9, k);
    }
    RunAppend(0, Repeat(Counting, 9), Repeat(Holding, 5));
    RunAppend(0, Repeat(Counting, 9) + Repeat(Holding, 5), [Counting]);
    CountWraps(0, 254);
    CountWraps(0, 255);
    CountWraps(0, 256);
    CountWraps(0, 257);
  }
}

=== FILE: crc5.dfy ===
/**
 The serial CRC-5 unit: a five-bit linear-feedback shift register with
 generator x^5 + x^2 + 1 (0x25, the generator of the USB token CRC in
 section 8.3.5.1 of the USB 2.0 specification), cleared by reset, no final
 inversion. One data bit enters per enabled rising edge, most significant
 bit first.
 */
module Crc5 {

  /** The register, bit 0 first. */
  datatype Reg = Reg(b0: bool, b1: bool, b2: bool, b3: bool, b4: bool)

  const Zero := Reg(false, false, false, false, false)

  function BitValue(b: bool): nat {
    if b then 1 else 0
  }

  /** The register read as an unsigned number. */
  function Value(r: Reg): (v: nat)
    ensures v < 32
    ensures v == 0 <==> r == Zero
  {
    BitValue(r.b0) + 2 * BitValue(r.b1) + 4 * BitValue(r.b2) + 8 * BitValue(r.b3) + 16 * BitValue(r.b4)
  }

  /** Shift one data bit in: the feedback is the outgoing top bit xor the data
      bit, and it is fed back at the x^0 and x^2 taps. One shift is one step
      of the word algorithm `WordStep`. */
  function Shift(r: Reg, din: bool): (r': Reg)
    ensures Word(r') == WordStep(Word(r), din)
  {
    var fb := r.b4 != din;
    Reg(fb, r.b0, r.b1 != fb, r.b2, r.b3)
  }

  /** One rising edge: reset clears, enable shifts `din` in, else hold. */
  function Step(r: Reg, rst: bool, en: bool, din: bool): (r': Reg)
    ensures rst ==> r' == Zero
    ensures !rst && !en ==> r' == r
    ensures !rst && en ==> r' == Shift(r, din)
  {
    if rst then Zero else if en then Shift(r, din) else r
  }

  /** The register after shifting in `bits` in order; for every bit string
      it agrees with the word algorithm. */
  function Crc(r: Reg, bits: seq<bool>): (c: Reg)
    ensures Word(c) == WordCrc(Word(r), bits)
    decreases |bits|
  {
    if |bits| == 0 then r else Crc(Shift(r, bits[0]), bits[1..])
  }

  lemma {:induction false} CrcAppend(r: Reg, a: seq<bool>, b: seq<bool>)
    ensures Crc(r, a + b) == Crc(Crc(r, a), b)
    decreases |a|
  {
    if |a| > 0 {
      assert (a + b)[0] == a[0];
      assert (a + b)[1..] == a[1..] + b;
      CrcAppend(Shift(r, a[0]), a[1..], b);
    } else {
      assert a + b == b;
    }
  }

  /** The software formulation of the same CRC on a 5-bit word: shift left
      (dropping bit 4) and xor the low generator bits 0b00101 when the
      outgoing bit differs from the data bit. */
  function WordStep(c: bv5, din: bool): bv5 {
    var fb := ((c >> 4) == 1) != din;
    (c << 1) ^ (if fb then 0x05 else 0)
  }

  function WordCrc(c: bv5, bits: seq<bool>): bv5
    decreases |bits|
  {
    if |bits| == 0 then c else WordCrc(WordStep(c, bits[0]), bits[1..])
  }

  function Word(r: Reg): bv5 {
    (if r.b0 then 1 else 0) | (if r.b1 then 2 else 0) | (if r.b2 then 4 else 0)
      | (if r.b3 then 8 else 0) | (if r.b4 then 16 else 0)
  }

  /** The register's number and its 5-bit word are the same value. */
  lemma ValueIsWord(r: Reg)
    ensures Value(r) == Word(r) as nat
  {
  }

  /** The register's bits, most significant first, as they would be sent. */
  function MsbFirst(r: Reg): (s: seq<bool>)
    ensures |s| == 5
  {
    [r.b4, r.b3, r.b2, r.b1, r.b0]
  }

  /** Appending the CRC of a message to the message leaves a zero residue:
      what a receiver checks. */
  lemma ResidueIsZero(msg: seq<bool>)
    ensures Crc(Zero, msg + MsbFirst(Crc(Zero, msg))) == Zero
  {
    CrcAppend(Zero, msg, MsbFirst(Crc(Zero, msg)));
    ShiftOutSelf(Crc(Zero, msg));
  }

  /** Feeding a register its own bits, top first, cancels the feedback each
      time and shifts it out to zero. */
  lemma ShiftOutSelf(r: Reg)
    ensures Crc(r, MsbFirst(r)) == Zero
  {
    var s := MsbFirst(r);
    var r1 := Shift(r, r.b4);
    assert r1 == Reg(false, r.b0, r.b1, r.b2, r.b3);
    var r2 := Shift(r1, r.b3);
    assert r2 == Reg(false, false, r.b0, r.b1, r.b2);
    var r3 := Shift(r2, r.b2);
    var r4 := Shift(r3, r.b1);
    var r5 := Shift(r4, r.b0);
    assert r5 == Zero;
    assert Crc(r, s) == Crc(r1, s[1..]);
    assert Crc(r1, s[1..]) == Crc(r2, s[2..]);
    assert Crc(r2, s[2..]) == Crc(r3, s[3..]);
    assert Crc(r3, s[3..]) == Crc(r4, s[4..]);
    assert Crc(r4, s[4..]) == Crc(r5, s[5..]);
  }

  function XorReg(x: Reg, y: Reg): Reg {
    Reg(x.b0 != y.b0, x.b1 != y.b1, x.b2 != y.b2, x.b3 != y.b3, x.b4 != y.b4)
  }

  function XorBits(a: seq<bool>, b: seq<bool>): (c: seq<bool>)
    requires |a| == |b|
    ensures |c| == |a| && forall i :: 0 <= i < |a| ==> c[i] == (a[i] != b[i])
  {
    seq(|a|, i requires 0 <= i < |a| => a[i] != b[i])
  }

  /** With a zero start and no inversion the CRC is linear over xor. */
  lemma {:induction false} CrcLinear(x: Reg, y: Reg, a: seq<bool>, b: seq<bool>)
    requires |a| == |b|
    ensures Crc(XorReg(x, y), XorBits(a, b)) == XorReg(Crc(x, a), Crc(y, b))
    decreases |a|
  {
    if |a| > 0 {
      assert XorBits(a, b)[1..] == XorBits(a[1..], b[1..]);
      CrcLinear(Shift(x, a[0]), Shift(y, b[0]), a[1..], b[1..]);
    }
  }

  /** Shifting in zeros never clears a register that is not already zero. */
  lemma {:induction false} ZerosKeepNonzero(r: Reg, n: nat)
    requires r != Zero
    ensures Crc(r, seq(n, _ => false)) != Zero
    decreases n
  {
    if n > 0 {
      assert seq(n, _ => false)[1..] == seq(n - 1, _ => false);
      ZerosKeepNonzero(Shift(r, false), n - 1);
    }
  }

  /** Every single-bit error in a message changes its CRC. */
  lemma SingleBitErrorDetected(msg: seq<bool>, i: nat)
    requires i < |msg|
    ensures Crc(Zero, msg[i := !msg[i]]) != Crc(Zero, msg)
  {
    var bad := msg[i := !msg[i]];
    var err := XorBits(bad, msg);
    var before := seq(i, _ => false);
    var after := seq(|msg| - i - 1, _ => false);
    assert err == before + [true] + after;
    CrcLinear(Zero, Zero, bad, msg);
    assert XorReg(Zero, Zero) == Zero;
    ZeroStaysZero(i);
    CrcAppend(Zero, before, [true]);
    CrcAppend(Zero, before + [true], after);
    ZerosKeepNonzero(Shift(Zero, true), |msg| - i - 1);
  }

  lemma {:induction false} ZeroStaysZero(n: nat)
    ensures Crc(Zero, seq(n, _ => false)) == Zero
    decreases n
  {
    if n > 0 {
      assert seq(n, _ => false)[1..] == seq(n - 1, _ => false);
      ZeroStaysZero(n - 1);
    }
  }

  /** `test_crc5_basic`: reset for two edges, release for one and read 0;
      then eight enabled edges shifting in 0xA5 most significant bit first
      give 0x0E. The testbench clocks a ninth edge (enable and data still high)
      before reading, and its read right after that edge still sees the value
      from before the edge: had the ninth update been visible the register
      would hold 0x19. */
  lemma TestbenchPasses(power: Reg)
    ensures Step(Step(Step(power, true, false, false), true, false, false), false, false, false) == Zero
    ensures Value(Crc(Zero, [true, false, true, false, false, true, false, true])) == 0x0E
    ensures Value(Crc(Zero, [true, false, true, false, false, true, false, true, true])) == 0x19
  {
  }
}

=== FILE: measure.dfy ===
/**
 The period/duty measurement of the clock-divider testbench.

 The divided clock is observed as a finite sequence of samples `s`:
 `s[0]` is the value read when the measurement starts and `s[k]` the value
 read after the k-th further rising edge of the input clock.
 `measure_one_period` waits on edges in four unbounded loops; here each loop
 becomes a search for the first sample with a given value, and a search that
 runs off the end of the samples yields None (that loop would wait forever).
 */
module PeriodMeasure {
  import opened Wrappers

  /** Result of one measurement, in input-clock cycles. */
  datatype Measurement = Measurement(period: nat, high: nat, low: nat)

  /** The four edges a measurement synchronises on: the first low sample,
      the rising edge that starts the period, the falling edge inside it and
      the rising edge that ends it. */
  datatype Window = Window(low: nat, rise: nat, fall: nat, end: nat)

  /** Index of the first sample at or after `from` that equals `v`. */
  function FirstFrom(s: seq<bool>, from: nat, v: bool): (r: Option<nat>)
    decreases |s| - from
    ensures r.Some? ==> from <= r.value < |s| && s[r.value] == v
    ensures r.Some? ==> forall k :: from <= k < r.value ==> s[k] != v
    ensures r.None? ==> forall k :: from <= k < |s| ==> s[k] != v
  {
    if from >= |s| then None
    else if s[from] == v then Some(from)
    else FirstFrom(s, from + 1, v)
  }

  /** The only index the search can return is the first occurrence. */
  lemma FirstFromIs(s: seq<bool>, from: nat, v: bool, i: nat)
    requires from <= i < |s| && s[i] == v
    requires forall k :: from <= k < i ==> s[k] != v
    ensures FirstFrom(s, from, v) == Some(i)
  {
  }

  /** The edges `measure_one_period` stops at, or None if one never comes.
      Its first wait loop is the search below; the other three are
      AwaitRise, AwaitFall and AwaitEnd. */
  function Sync(s: seq<bool>): (r: Option<Window>)
    ensures r.Some? ==> r.value.low < r.value.rise < r.value.fall < r.value.end < |s|
    ensures r.Some? ==> !s[r.value.low] && s[r.value.rise] && !s[r.value.fall] && s[r.value.end]
    // the output is high until the first low sample ...
    ensures r.Some? ==> forall k :: 0 <= k < r.value.low ==> s[k]
    // ... stays low until the period starts ...
    ensures r.Some? ==> forall k :: r.value.low < k < r.value.rise ==> !s[k]
    // ... and the two phases are maximal runs
    ensures r.Some? ==> forall k :: r.value.rise <= k < r.value.fall ==> s[k]
    ensures r.Some? ==> forall k :: r.value.fall <= k < r.value.end ==> !s[k]
    ensures r.Some? ==> FirstFrom(s, 0, false) == Some(r.value.low)
    ensures r.Some? ==> AwaitRise(s, r.value.low) == r
  {
    match FirstFrom(s, 0, false)
    case None => None
    case Some(low) => AwaitRise(s, low)
  }

  /** Second loop: wait for the output to rise after the low sample. */
  function AwaitRise(s: seq<bool>, low: nat): (r: Option<Window>)
    ensures r.Some? ==> r.value.low == low
    ensures r.Some? ==> FirstFrom(s, low + 1, true) == Some(r.value.rise)
    ensures r.Some? ==> AwaitFall(s, low, r.value.rise) == r
  {
    match FirstFrom(s, low + 1, true)
    case None => None
    case Some(rise) => AwaitFall(s, low, rise)
  }

  /** Third loop: wait for the output to fall inside the period. */
  function AwaitFall(s: seq<bool>, low: nat, rise: nat): (r: Option<Window>)
    ensures r.Some? ==> r.value.low == low && r.value.rise == rise
    ensures r.Some? ==> FirstFrom(s, rise + 1, false) == Some(r.value.fall)
    ensures r.Some? ==> AwaitEnd(s, low, rise, r.value.fall) == r
  {
    match FirstFrom(s, rise + 1, false)
    case None => None
    case Some(fall) => AwaitEnd(s, low, rise, fall)
  }

  /** Fourth loop: wait for the rising edge that ends the period. */
  function AwaitEnd(s: seq<bool>, low: nat, rise: nat, fall: nat): (r: Option<Window>)
    ensures r.Some? ==> r.value.low == low && r.value.rise == rise && r.value.fall == fall
    ensures r.Some? ==> FirstFrom(s, fall + 1, true) == Some(r.value.end)
  {
    match FirstFrom(s, fall + 1, true)
    case None => None
    case Some(end) => Some(Window(low, rise, fall, end))
  }

  /** `measure_one_period`: (period, high, low), counting the edge that made
      the output high as the first high cycle and the edge that made it low as
      the first low cycle. */
  function Measure(s: seq<bool>): (r: Option<Measurement>)
    ensures r.Some? ==> r.value.period == r.value.high + r.value.low
    ensures r.Some? ==> r.value.high >= 1 && r.value.low >= 1
    ensures r.Some? <==> Sync(s).Some?
  {
    match Sync(s)
    case None => None
    case Some(w) => Some(Measurement(w.end - w.rise, w.fall - w.rise, w.end - w.fall))
  }

  /** Number of input edges a successful measurement waits for; a following
      measurement starts reading at this sample. */
  function Consumed(s: seq<bool>): (n: nat)
    requires Sync(s).Some?
    ensures 0 < n < |s| && s[n]
  {
    Sync(s).value.end
  }

  /** The edge synchronisation is determined by its four searches. */
  lemma SyncFromEdges(s: seq<bool>, low: nat, rise: nat, fall: nat, end: nat)
    requires FirstFrom(s, 0, false) == Some(low)
    requires FirstFrom(s, low + 1, true) == Some(rise)
    requires FirstFrom(s, rise + 1, false) == Some(fall)
    requires FirstFrom(s, fall + 1, true) == Some(end)
    ensures Sync(s) == Some(Window(low, rise, fall, end))
  {
  }

  /** The measurement read off a synchronisation window. */
  lemma MeasureOfWindow(s: seq<bool>, low: nat, rise: nat, fall: nat, end: nat)
    requires Sync(s) == Some(Window(low, rise, fall, end))
    ensures rise < fall < end
    ensures Measure(s) == Some(Measurement(end - rise, fall - rise, end - fall))
    ensures Consumed(s) == end
  {
  }

  /** Once the four edges are known, the measurement is determined by them. */
  lemma MeasureFromEdges(s: seq<bool>, low: nat, rise: nat, fall: nat, end: nat)
    requires FirstFrom(s, 0, false) == Some(low)
    requires FirstFrom(s, low + 1, true) == Some(rise)
    requires FirstFrom(s, rise + 1, false) == Some(fall)
    requires FirstFrom(s, fall + 1, true) == Some(end)
    ensures rise < fall < end
    ensures Measure(s) == Some(Measurement(end - rise, fall - rise, end - fall))
    ensures Consumed(s) == end
  {
    SyncFromEdges(s, low, rise, fall, end);
    MeasureOfWindow(s, low, rise, fall, end);
  }

  /** A low, a high, a low and a high sample occur in this order. */
  predicate HasLowHighLowHigh(s: seq<bool>) {
    exists a, b, c, d :: 0 <= a < b < c < d < |s| && !s[a] && s[b] && !s[c] && s[d]
  }

  /** The four transitions the measurement waits for are in the samples
      whenever it succeeds. */
  lemma MeasuredHasTransitions(s: seq<bool>)
    requires Sync(s).Some?
    ensures HasLowHighLowHigh(s)
  {
    var w := Sync(s).value;
    assert !s[w.low] && s[w.rise] && !s[w.fall] && s[w.end];
  }

  /** If the four transitions occur, every search finds one no later. */
  lemma {:induction false} TransitionsAreFound(s: seq<bool>, a: nat, b: nat, c: nat, d: nat)
    requires a < b < c < d < |s| && !s[a] && s[b] && !s[c] && s[d]
    ensures Sync(s).Some?
  {
    var low := FirstFrom(s, 0, false);
    assert low.Some? && low.value <= a;
    var rise := FirstFrom(s, low.value + 1, true);
    assert rise.Some? && rise.value <= b;
    var fall := FirstFrom(s, rise.value + 1, false);
    assert fall.Some? && fall.value <= c;
    var end := FirstFrom(s, fall.value + 1, true);
    assert end.Some? && end.value <= d;
    SyncFromEdges(s, low.value, rise.value, fall.value, end.value);
  }

  /** The measurement succeeds exactly when the four transitions it waits for
      occur within the samples; otherwise the testbench's loops never exit. */
  lemma MeasureSucceedsIff(s: seq<bool>)
    ensures Measure(s).Some? <==> HasLowHighLowHigh(s)
  {
    if Sync(s).Some? {
      MeasuredHasTransitions(s);
    }
    if HasLowHighLowHigh(s) {
      var a, b, c, d :| 0 <= a < b < c < d < |s| && !s[a] && s[b] && !s[c] && s[d];
      TransitionsAreFound(s, a, b, c, d);
    }
  }

  /** A divided clock stuck at one level can never be measured. */
  lemma StuckOutputNeverMeasures(s: seq<bool>, level: bool)
    requires forall k :: 0 <= k < |s| ==> s[k] == level
    ensures Measure(s) == None
  {
    MeasureSucceedsIff(s);
  }

  /** A search that succeeds is not affected by samples appended later. */
  lemma FirstFromPrefix(s: seq<bool>, t: seq<bool>, from: nat, v: bool, i: nat)
    requires FirstFrom(s, from, v) == Some(i)
    ensures FirstFrom(s + t, from, v) == Some(i)
  {
    assert forall k :: from <= k <= i ==> (s + t)[k] == s[k];
    FirstFromIs(s + t, from, v, i);
  }

  /** The four searches behind a synchronisation window. */
  lemma EdgesOfSync(s: seq<bool>, low: nat, rise: nat, fall: nat, end: nat)
    requires Sync(s) == Some(Window(low, rise, fall, end))
    ensures FirstFrom(s, 0, false) == Some(low)
    ensures FirstFrom(s, low + 1, true) == Some(rise)
    ensures FirstFrom(s, rise + 1, false) == Some(fall)
    ensures FirstFrom(s, fall + 1, true) == Some(end)
  {
  }

  /** A window found in `s` is found again when samples are appended. */
  lemma SyncOfPrefix(s: seq<bool>, t: seq<bool>, low: nat, rise: nat, fall: nat, end: nat)
    requires Sync(s) == Some(Window(low, rise, fall, end))
    ensures Sync(s + t) == Some(Window(low, rise, fall, end))
  {
    EdgesOfSync(s, low, rise, fall, end);
    FirstFromPrefix(s, t, 0, false, low);
    FirstFromPrefix(s, t, low + 1, true, rise);
    FirstFromPrefix(s, t, rise + 1, false, fall);
    FirstFromPrefix(s, t, fall + 1, true, end);
    SyncFromEdges(s + t, low, rise, fall, end);
  }

  /** Samples taken after a measurement has finished do not change it: the
      finite model agrees with the unbounded loops of `measure_one_period`
      whenever it succeeds. */
  lemma MeasureIgnoresLaterSamples(s: seq<bool>, t: seq<bool>)
    requires Sync(s).Some?
    ensures Sync(s + t) == Sync(s)
    ensures Measure(s + t) == Measure(s)
  {
    var w := Sync(s).value;
    SyncOfPrefix(s, t, w.low, w.rise, w.fall, w.end);
    MeasureOfWindow(s, w.low, w.rise, w.fall, w.end);
    MeasureOfWindow(s + t, w.low, w.rise, w.fall, w.end);
  }
}

=== FILE: traffic_light.dfy ===
/**
 The traffic-light controller: a state machine that stays in RED for four
 tick pulses, GREEN for five and YELLOW for two, and drives one lamp per
 state. Edges on which the tick input is low leave it unchanged.
 */
module TrafficLight {
  import opened Words

  datatype Light = Red | Green | Yellow

  /** Number of tick pulses spent in each light. */
  function Dwell(l: Light): nat {
    match l
    case Red => 4
    case Green => 5
    case Yellow => 2
  }

  function NextLight(l: Light): Light {
    match l
    case Red => Green
    case Green => Yellow
    case Yellow => Red
  }

  /** The current light and the tick pulses already counted in it. */
  datatype TrafficState = TrafficState(light: Light, ticks: nat)

  const ResetState := TrafficState(Red, 0)

  predicate Valid(st: TrafficState) {
    st.ticks < Dwell(st.light)
  }

  /** One tick pulse: count it, and move to the next light once the dwell
      count is reached. */
  function OnTick(st: TrafficState): (r: TrafficState)
    ensures Valid(r)
    ensures r.light == st.light || (r.light == NextLight(st.light) && r.ticks == 0)
    ensures Valid(st) ==> (r.light == st.light <==> st.ticks + 1 < Dwell(st.light))
  {
    if st.ticks + 1 >= Dwell(st.light) then TrafficState(NextLight(st.light), 0)
    else TrafficState(st.light, st.ticks + 1)
  }

  /** One rising edge of the clock with the reset and tick inputs sampled. */
  function Step(st: TrafficState, rst: bool, tick: bool): (r: TrafficState)
    ensures rst ==> r == ResetState
    ensures !rst && !tick ==> r == st
    ensures !rst && tick ==> r == OnTick(st)
  {
    if rst then ResetState
    else if tick then OnTick(st)
    else st
  }

  /** `apply_tick`: tick high for one edge, low for the next two. */
  function ApplyTick(st: TrafficState): (r: TrafficState)
    ensures r == OnTick(st)
  {
    Step(Step(Step(st, false, true), false, false), false, false)
  }

  /** `n` clock edges with tick low. */
  function Idle(st: TrafficState, n: nat): TrafficState
    decreases n
  {
    if n == 0 then st else Step(Idle(st, n - 1), false, false)
  }

  /** Edges with tick low never advance the machine. */
  lemma {:induction false} IdleEdgesHold(st: TrafficState, n: nat)
    ensures Idle(st, n) == st
    decreases n
  {
    if n > 0 {
      IdleEdgesHold(st, n - 1);
    }
  }

  /** The state after `n` calls of `apply_tick`. */
  function Ticks(st: TrafficState, n: nat): TrafficState
    decreases n
  {
    if n == 0 then st else Ticks(ApplyTick(st), n - 1)
  }

  lemma {:induction false} TicksAdd(st: TrafficState, a: nat, b: nat)
    ensures Ticks(st, a + b) == Ticks(Ticks(st, a), b)
    decreases a
  {
    if a > 0 {
      TicksAdd(ApplyTick(st), a - 1, b);
    }
  }

  /** Within a light the tick count grows by one per pulse, and the pulse that
      completes the dwell count moves to the next light. */
  lemma {:induction false} TicksWithinLight(st: TrafficState, k: nat)
    requires Valid(st) && st.ticks + k <= Dwell(st.light)
    ensures Ticks(st, k) ==
      if st.ticks + k < Dwell(st.light) then TrafficState(st.light, st.ticks + k)
      else TrafficState(NextLight(st.light), 0)
    decreases k
  {
    if k > 0 {
      if st.ticks + 1 < Dwell(st.light) {
        TicksWithinLight(ApplyTick(st), k - 1);
      }
    }
  }

  /** Eleven pulses (4 + 5 + 2) bring every valid state back to itself. */
  lemma CycleOfEleven(st: TrafficState)
    requires Valid(st)
    ensures Ticks(st, 11) == st
  {
    var l := st.light;
    var d := Dwell(l) - st.ticks;
    TicksWithinLight(st, d);
    var s1 := TrafficState(NextLight(l), 0);
    TicksWithinLight(s1, Dwell(s1.light));
    var s2 := TrafficState(NextLight(s1.light), 0);
    TicksWithinLight(s2, Dwell(s2.light));
    var s3 := TrafficState(l, 0);
    TicksWithinLight(s3, st.ticks);
    TicksAdd(st, d, Dwell(s1.light));
    TicksAdd(st, d + Dwell(s1.light), Dwell(s2.light));
    TicksAdd(st, d + Dwell(s1.light) + Dwell(s2.light), st.ticks);
  }

  /** The lamp outputs as bits. */
  datatype Lamps = Lamps(red: Bit, yellow: Bit, green: Bit)

  function Outputs(st: TrafficState): (o: Lamps)
    ensures o.red + o.yellow + o.green == 1
    ensures o.red == 1 <==> st.light == Red
    ensures o.yellow == 1 <==> st.light == Yellow
    ensures o.green == 1 <==> st.light == Green
  {
    match st.light
    case Red => Lamps(1, 0, 0)
    case Yellow => Lamps(0, 1, 0)
    case Green => Lamps(0, 0, 1)
  }

  const RedOn := Lamps(1, 0, 0)
  const YellowOn := Lamps(0, 1, 0)
  const GreenOn := Lamps(0, 0, 1)

  /** `test_traffic_light_cycle`: from any power-on state, reset for two
      edges and release for one, then eleven tick pulses with the lamps
      checked after each. */
  lemma TestbenchPasses(power: TrafficState)
    ensures Step(Step(Step(power, true, false), true, false), false, false) == ResetState
    ensures Outputs(ResetState) == RedOn
    ensures forall k :: 1 <= k <= 3 ==> Outputs(Ticks(ResetState, k)) == RedOn
    ensures Outputs(Ticks(ResetState, 4)) == GreenOn
    ensures forall k :: 5 <= k <= 8 ==> Outputs(Ticks(ResetState, k)) == GreenOn
    ensures Outputs(Ticks(ResetState, 9)) == YellowOn
    ensures Outputs(Ticks(ResetState, 10)) == YellowOn
    ensures Outputs(Ticks(ResetState, 11)) == RedOn
  {
    forall k | 1 <= k <= 4 ensures Ticks(ResetState, k) ==
      if k < 4 then TrafficState(Red, k) else TrafficState(Green, 0)
    {
      TicksWithinLight(ResetState, k);
    }
    var g := TrafficState(Green, 0);
    forall k | 0 <= k <= 5 ensures Ticks(ResetState, 4 + k) ==
      if k < 5 then TrafficState(Green, k) else TrafficState(Yellow, 0)
    {
      TicksWithinLight(g, k);
      TicksAdd(ResetState, 4, k);
    }
    TicksWithinLight(TrafficState(Yellow, 0), 1);
    TicksAdd(ResetState, 9, 1);
    CycleOfEleven(ResetState);
  }
}

=== FILE: waveform.dfy ===
/**
 The reference shape of a divided clock: a periodic trace of `high` high
 samples followed by `low` low samples. The position inside the period is a
 counter in [0, high + low) that advances by one per sample and wraps to 0;
 the sample is high while the position is below `high`.
 */
module Waveform {
  import opened Wrappers
  import opened PeriodMeasure

  /** One step of a position counter of period `p`. */
  function Next(p: nat, c: nat): (r: nat)
    requires c < p
    ensures r < p
    ensures r == 0 <==> c == p - 1
    ensures r != 0 ==> r == c + 1
  {
    if c + 1 == p then 0 else c + 1
  }

  /** Position reached after `k` further samples. */
  function Advance(p: nat, c: nat, k: nat): (r: nat)
    requires c < p
    ensures r < p
    decreases k
  {
    if k == 0 then c else Advance(p, Next(p, c), k - 1)
  }

  lemma {:induction false} AdvanceAdd(p: nat, c: nat, a: nat, b: nat)
    requires c < p
    ensures Advance(p, c, a + b) == Advance(p, Advance(p, c, a), b)
    decreases a
  {
    if a > 0 {
      AdvanceAdd(p, Next(p, c), a - 1, b);
    }
  }

  /** Within two periods the position is the wrapped sum, computed without
      a general modulus. */
  lemma {:induction false} AdvanceWithinTwoPeriods(p: nat, c: nat, k: nat)
    requires c < p && c + k <= 2 * p
    ensures Advance(p, c, k) ==
      if c + k < p then c + k else if c + k < 2 * p then c + k - p else 0
    decreases k
  {
    if k > 0 {
      AdvanceWithinTwoPeriods(p, Next(p, c), k - 1);
    }
  }

  /** The wave value at position `c`. */
  predicate Level(high: nat, c: nat) {
    c < high
  }

  /** `s` is the periodic wave of `high` highs then `low` lows, read from
      position `phase` on. */
  predicate IsWave(s: seq<bool>, high: nat, low: nat, phase: nat)
    requires phase < high + low
  {
    forall k :: 0 <= k < |s| ==> s[k] == Level(high, Advance(high + low, phase, k))
  }

  /** Dropping samples from the front leaves the same wave at a later phase. */
  lemma SuffixIsWave(s: seq<bool>, high: nat, low: nat, phase: nat, a: nat)
    requires phase < high + low && a <= |s|
    requires IsWave(s, high, low, phase)
    ensures IsWave(s[a..], high, low, Advance(high + low, phase, a))
  {
    var p := high + low;
    forall k | 0 <= k < |s| - a
      ensures s[a..][k] == Level(high, Advance(p, Advance(p, phase, a), k))
    {
      AdvanceAdd(p, phase, a, k);
    }
  }

  /** The samples needed to measure a wave that starts at `phase`: in the
      worst case the measurement waits almost a period to synchronise and then
      a full period. */
  function SamplesNeeded(high: nat, low: nat, phase: nat): nat
    requires phase < high + low
  {
    2 * (high + low) - phase + 1
  }

  /** A sample of a wave within two periods of its start, in closed form. */
  lemma WaveSample(s: seq<bool>, high: nat, low: nat, phase: nat, k: nat)
    requires phase < high + low && k < |s| && phase + k <= 2 * (high + low)
    requires IsWave(s, high, low, phase)
    ensures var p := high + low;
      s[k] == (if phase + k < p then phase + k < high
               else if phase + k < 2 * p then phase + k - p < high
               else 0 < high)
  {
    AdvanceWithinTwoPeriods(high + low, phase, k);
  }

  /** Index of the first low sample of a wave starting at `phase`. */
  function FirstLow(high: nat, phase: nat): nat {
    if phase < high then high - phase else 0
  }

  lemma WaveWaitLow(s: seq<bool>, high: nat, low: nat, phase: nat)
    requires high >= 1 && low >= 1 && phase < high + low
    requires IsWave(s, high, low, phase)
    requires |s| >= SamplesNeeded(high, low, phase)
    ensures FirstFrom(s, 0, false) == Some(FirstLow(high, phase))
  {
    forall k | 0 <= k < FirstLow(high, phase) ensures s[k] {
      WaveSample(s, high, low, phase, k);
    }
    WaveSample(s, high, low, phase, FirstLow(high, phase));
    FirstFromIs(s, 0, false, FirstLow(high, phase));
  }

  lemma WaveWaitRise(s: seq<bool>, high: nat, low: nat, phase: nat)
    requires high >= 1 && low >= 1 && phase < high + low
    requires IsWave(s, high, low, phase)
    requires |s| >= SamplesNeeded(high, low, phase)
    ensures FirstFrom(s, FirstLow(high, phase) + 1, true) == Some(high + low - phase)
  {
    var rise := high + low - phase;
    forall k | FirstLow(high, phase) + 1 <= k < rise ensures !s[k] {
      WaveSample(s, high, low, phase, k);
    }
    WaveSample(s, high, low, phase, rise);
    FirstFromIs(s, FirstLow(high, phase) + 1, true, rise);
  }

  lemma WaveWaitFall(s: seq<bool>, high: nat, low: nat, phase: nat)
    requires high >= 1 && low >= 1 && phase < high + low
    requires IsWave(s, high, low, phase)
    requires |s| >= SamplesNeeded(high, low, phase)
    ensures FirstFrom(s, high + low - phase + 1, false) == Some(2 * high + low - phase)
  {
    var rise := high + low - phase;
    forall k | rise + 1 <= k < rise + high ensures s[k] {
      WaveSample(s, high, low, phase, k);
    }
    WaveSample(s, high, low, phase, rise + high);
    FirstFromIs(s, rise + 1, false, rise + high);
  }

  lemma WaveWaitEnd(s: seq<bool>, high: nat, low: nat, phase: nat)
    requires high >= 1 && low >= 1 && phase < high + low
    requires IsWave(s, high, low, phase)
    requires |s| >= SamplesNeeded(high, low, phase)
    ensures FirstFrom(s, 2 * high + low - phase + 1, true) == Some(2 * (high + low) - phase)
  {
    var rise := high + low - phase;
    forall k | rise + high + 1 <= k < rise + high + low ensures !s[k] {
      WaveSample(s, high, low, phase, k);
    }
    WaveSample(s, high, low, phase, rise + high + low);
    FirstFromIs(s, rise + high + 1, true, rise + high + low);
  }

  /** Phase independence: wherever in the period the measurement starts, it
      reports exactly (high + low, high, low), and it stops at the first
      period boundary it completes. */
  lemma MeasureWave(s: seq<bool>, high: nat, low: nat, phase: nat)
    requires high >= 1 && low >= 1 && phase < high + low
    requires IsWave(s, high, low, phase)
    requires |s| >= SamplesNeeded(high, low, phase)
    ensures Measure(s) == Some(Measurement(high + low, high, low))
    ensures Consumed(s) == 2 * (high + low) - phase
  {
    var rise := high + low - phase;
    WaveWaitLow(s, high, low, phase);
    WaveWaitRise(s, high, low, phase);
    WaveWaitFall(s, high, low, phase);
    WaveWaitEnd(s, high, low, phase);
    MeasureFromEdges(s, FirstLow(high, phase), rise, rise + high, rise + high + low);
  }

  /** Two back-to-back measurements of a steady wave agree. */
  lemma MeasureWaveTwice(s: seq<bool>, high: nat, low: nat, phase: nat)
    requires high >= 1 && low >= 1 && phase < high + low
    requires IsWave(s, high, low, phase)
    requires |s| >= 4 * (high + low) + 1
    ensures Measure(s).Some?
    ensures Measure(s[Consumed(s)..]) == Measure(s)
  {
    var p := high + low;
    MeasureWave(s, high, low, phase);
    var n := Consumed(s);
    SuffixIsWave(s, high, low, phase, n);
    AdvanceWithinTwoPeriods(p, phase, n);
    MeasureWave(s[n..], high, low, 0);
  }
}

=== FILE: words.dfy ===
/** Bit-width types shared by the devices. */
module Words {

  type Bit = x: nat | x < 2

  /** A 4-bit value. */
  type Nibble = x: nat | x < 16

  /** An 8-bit value. */
  type Byte = x: nat | x < 256

  function Pow2(n: nat): (r: nat)
    ensures r >= 1
  {
    if n == 0 then 1 else 2 * Pow2(n - 1)
  }
}

=== FILE: wrappers.dfy ===
/** Option type used for results that may be missing (a wait that never ends). */
module Wrappers {

  datatype Option<+T> = None | Some(value: T) {

    /** True if there is no value; lets `:-` propagate the None. */
    predicate IsFailure() {
      None?
    }

    function PropagateFailure<U>(): Option<U>
      requires None?
    {
      None
    }

    function Extract(): T
      requires Some?
    {
      value
    }
  }
}
